=== FILE: README.md ===
# Engagement generator — a Dafny model

This project models the engagement builder of `scripts/engagement_generator.py`,
the tool that turns the "New Engagement" form into an Obsidian engagement folder.
It covers four parts:

- **Validation and metadata.** The form is rejected when the engagement name or
  the client name is blank after stripping, or when no testing phase is chosen.
  Otherwise the tool derives the `engagement_data` dictionary: stripped fields,
  `Y-M-D` date strings, and the tag list (type slug, client slug, start year,
  one tag per chosen phase).
- **Template rendering.** An ordered list of (placeholder, value) pairs is
  applied to the template text with Python's `str.replace`, one pair after
  another. There are two fixed lists: one for the engagement overview and one
  for each phase file.
- **The structure.** The overwrite question comes first; declining returns
  normally. Then `rmtree`, the `mkdir` calls, and one rendered file per output.
  The build stops at the first template that is missing.
- **The outcome.** The message box the button press ends with: field error,
  success, template error, or generic error.

The disk is an abstract tree: a set of directory paths and a map from file paths
to text, where a path is a sequence of name segments. The answer to the Yes/No
dialog is a boolean parameter.

Modules, one per file:

| file | module | contents |
|---|---|---|
| strings.dfy | Strings | ASCII `strip`, `lower`, `split(sep)[0]`, `join` |
| substitution.dfy | Substitution | `str.replace`, `in`, `count`, and their laws |
| templates.dfy | Templates | rendering with an ordered pair list |
| filetree.dfy | FileTree | the abstract disk: `exists`, `mkdir`, `rmtree`, file writes |
| engagement.dfy | Engagement | form, validation, dates, year, tags |
| placeholders.dfy | Placeholders | the two concrete pair lists and what their order implies |
| structure.dfy | Structure | `create_engagement_structure` and the two file writers |
| generator.dfy | Generator | `generate_engagement`: validation, build, message |

## Model

| member | source | states |
|---|---|---|
| Substitution.Replace | scripts/engagement_generator.py:405-406 | Python `str.replace`: every non-overlapping occurrence, from left to right, is replaced and the result is not scanned again. An empty key puts the value before every character and once after the last. Its laws are the Substitution lemmas below: ReplaceAbsent, ReplaceEliminates, ReplaceLength, ReplaceBySelf, ReplaceIdempotent, ReplaceKeepsAbsent, ReplaceSkipsPrefix and ReplaceCharPointwise. |
| Substitution.ContainsAtSomePosition | scripts/engagement_generator.py:405-406 | The recursive occurrence test agrees with the slice definition of `key in text`, in both directions. |
| Substitution.ReplaceAbsent | scripts/engagement_generator.py:405-406 | Replacing a key that does not occur returns the text unchanged, so a placeholder the template lacks is skipped silently. |
| Substitution.ReplaceEliminates | scripts/engagement_generator.py:400 | Replacing a non-empty key by a non-empty value that shares no character with it leaves no occurrence of the key. An example is the year token replaced by a digit year. |
| Substitution.ReplaceLength | scripts/engagement_generator.py:405-406 | The result is longer by `len(value) - len(key)` for each occurrence that `count` finds. |
| Substitution.ReplaceBySelf | scripts/engagement_generator.py:405-406 | Replacing a key by itself changes nothing, the empty key included. |
| Substitution.ReplaceIdempotent | scripts/engagement_generator.py:405-406 | With a non-empty value foreign to the key, a second identical pass changes nothing. |
| Substitution.ReplaceKeepsAbsent | scripts/engagement_generator.py:405-406 | A non-empty value foreign to another key cannot create an occurrence of that key. |
| Substitution.DeadKey | scripts/engagement_generator.py:400-402 | Once a shorter key is gone from the text, a longer key containing it never matches, so its replacement never fires. |
| Substitution.ReplaceSkipsPrefix | scripts/engagement_generator.py:405-406 | Text in which no occurrence can start is copied through unchanged in front of the rest. |
| Substitution.ReplaceCharPointwise | scripts/engagement_generator.py:308-309 | Replacing one character by another maps the text character by character. |
| Templates.Render | scripts/engagement_generator.py:405-406 | The `for old, new in replacements.items()` loop: the pairs are applied one after another, in list order. RenderAppend, RenderSkipsAbsent, RenderDropsDeadPair, RenderKeepsAbsent, RenderEliminatesAll and RenderIdempotent characterise it. |
| Templates.RenderAppend | scripts/engagement_generator.py:405-406 | Rendering with a list `a + b` is rendering with `a`, then rendering that result with `b`. |
| Templates.RenderSkipsAbsent | scripts/engagement_generator.py:440-441 | A text holding none of the keys renders to itself. |
| Templates.RenderDropsDeadPair | scripts/engagement_generator.py:394-406 | A pair whose key contains a piece already gone from the text rendered so far can be dropped without changing the result. |
| Templates.RenderEliminatesAll | scripts/engagement_generator.py:405-406 | When every key and value is non-empty and no value shares a character with any key, the rendered text holds none of the keys. |
| Templates.RenderIdempotent | scripts/engagement_generator.py:440-441 | Under the same condition, rendering the result again with the same pairs changes nothing. |
| Templates.RenderKeepsAbsent | scripts/engagement_generator.py:440-441 | Values foreign to a key never make that key appear across a whole rendering. |
| Placeholders.OverviewReplacements | scripts/engagement_generator.py:394-403 | The overview dictionary, with its eight pairs in insertion order. OverviewTagsLineNeverFires, EngagementsLinkNeedsTitleLeft and OverviewTagsLineKeepsTemplateTags state what that order implies. |
| Placeholders.PhaseReplacements | scripts/engagement_generator.py:426-438 | The phase dictionary, with its eleven pairs in insertion order. PhaseTagsLineNeverFires and PhaseTagsLineLowersName state what its order and its tags-line key imply. |
| Placeholders.FolderRelative | scripts/engagement_generator.py:424 | The folder path relative to the destination, with backslashes turned into slashes. FolderRelativeIs gives its value. |
| Placeholders.OverviewTagsLineNeverFires | scripts/engagement_generator.py:400-401 | With a plain year, the overview's tags-line pair (position 6) never fires. It contains the year token, which position 5 has already replaced. |
| Placeholders.PhaseTagsLineNeverFires | scripts/engagement_generator.py:430-431 | With a plain year, the phase tags-line pair (position 4) never fires, because the year pair at position 3 comes first. |
| Placeholders.EngagementsLinkNeedsTitleLeft | scripts/engagement_generator.py:395-402 | The `Engagements/<title>` pair does nothing unless a title token survives the first seven pairs. |
| Placeholders.OverviewTagsLineKeepsTemplateTags | scripts/engagement_generator.py:394-406 | With a digit year, the template's own tags line `tags: [engagement, <year token>]` renders to `tags: [engagement, <year>]`, not to the derived tag list. |
| Placeholders.FolderRelativeIs | scripts/engagement_generator.py:424 | For a name without a backslash, the folder placeholder of a phase file is `<name>/<phase folder>`. |
| Placeholders.StartYearIsYear | scripts/engagement_generator.py:294-310 | A start year picked from the combo box (digits only) becomes both the data's year and the third tag. |
| Placeholders.DigitYearSilencesTagsLines | scripts/engagement_generator.py:394-441 | With a digit year, neither the overview's nor the phase file's tags-line pair ever fires. |
| Placeholders.YearPairKillsNext | scripts/engagement_generator.py:405-406 | A pair directly after a year-token pair with a plain year never fires if its key holds the year token. |
| Placeholders.PhaseTagsLineLowersName | scripts/engagement_generator.py:431 | The lower-cased phase name that the phase tags-line key embeds is exactly the tag the tag list uses for that phase. |
| Strings.Strip | scripts/engagement_generator.py:275-292 | The result is the input without its leading and trailing whitespace. It is empty exactly when the input is all whitespace. |
| Strings.Lower | scripts/engagement_generator.py:308-309 | The result has the same length and no upper-case letter, and every other character stays in place. |
| Strings.LowerPointwise | scripts/engagement_generator.py:308-309 | Lower-casing maps each character on its own. |
| Strings.BeforeFirst | scripts/engagement_generator.py:310 | `split(sep)[0]` is the longest prefix without the separator. It is all of the text, or the separator follows it. |
| Strings.Join | scripts/engagement_generator.py:392 | `sep.join(parts)`, which builds the tags text for both writers. JoinAppend and JoinEnds characterise it. |
| Strings.JoinAppend | scripts/engagement_generator.py:392 | Joining one more part appends the separator and then that part. |
| Strings.JoinEnds | scripts/engagement_generator.py:423 | The joined text starts with the first part and ends with the last. Its length is the sum of the parts' lengths plus one separator per gap. |
| Strings.BeforeFirstOfJoined | scripts/engagement_generator.py:310 | The first field of `head + sep + tail` is `head` when `head` has no separator. |
| Engagement.Validate | scripts/engagement_generator.py:275-304 | The form is accepted exactly when name and client are non-blank and a phase is chosen. Each error is reported exactly when it is the first failed check. Accepted data holds the stripped non-empty name and client, the stripped assessor, the type label, the two date strings, the phase boxes, both folders exactly as given, and the tag list. |
| Engagement.YearOfDate | scripts/engagement_generator.py:294-310 | The year of `Y-M-D` is `Y` when `Y` holds no '-'. |
| Engagement.Slug | scripts/engagement_generator.py:308-309 | Same length as the input. Each space becomes '-', each other character is lower-cased, and no space is left. |
| Engagement.Tags | scripts/engagement_generator.py:307-318 | The tag list: type slug, client slug, start year, then a literal tag for each ticked phase. TagsShape gives its shape, and Slug and YearOfDate give its first three entries. |
| Engagement.TagsShape | scripts/engagement_generator.py:307-318 | The list has 3 + (number of chosen phases) tags. It starts with the type slug, the client slug and the year, then the chosen phases' tags in phase order. A phase tag is present exactly when its phase is chosen. |
| Engagement.ChosenAmong | scripts/engagement_generator.py:358-378 | A phase is in the result exactly when it is in the given list and its box is ticked. The result is no longer than the list. |
| Engagement.ChosenSpelledOut | scripts/engagement_generator.py:358-378 | The chosen phases are External, Internal and WebApp, in that order, each present exactly when its box is ticked. |
| Engagement.ChosenDistinct | scripts/engagement_generator.py:358-378 | No phase is chosen twice, so no phase file is created twice. |
| FileTree.MakeDirs | scripts/engagement_generator.py:352-365 | A successful `mkdir(parents=True)` adds the path and all its ancestors as directories, leaves the files alone and keeps the tree well formed. |
| FileTree.RemoveTree | scripts/engagement_generator.py:350 | `rmtree` removes exactly the entries at or below the folder, keeps everything else, and keeps the tree well formed. |
| FileTree.WriteFile | scripts/engagement_generator.py:408-409 | Writing sets one file's text and changes no other file and no directory. |
| Structure.CreateDirs | scripts/engagement_generator.py:352-365 | The `mkdir` calls leave the files unchanged and either all succeed or stop with `MkdirFailed`. |
| Structure.CreateDirsSpec | scripts/engagement_generator.py:352-365 | In an empty, unblocked folder every `mkdir` succeeds. The directories below the folder are then exactly the folder, `_Attachments`, `03_Findings`, and each chosen phase's folder with its `_Attachments`. |
| Structure.StructureDirsArePrefixes | scripts/engagement_generator.py:352-365 | The directory set equals the prefixes of the paths the `mkdir` calls name. |
| Structure.ClearedSpec | scripts/engagement_generator.py:346-350 | After `rmtree` (or with no folder), nothing lies in the folder and nothing outside it changes. |
| Structure.Outputs | scripts/engagement_generator.py:368-383 | The files to write, in call order: the overview, then one file per ticked phase. OutputsPlan, OutputsDistinct and OutputsWritable characterise it. |
| Structure.OutputsPlan | scripts/engagement_generator.py:368-383 | The overview comes first, from `TPL_Engagement_Overview.md` into `00_Engagement_Overview.md`. Then each phase gets `<name>_<Phase>.md` in its folder, from `TPL_<Phase>_Pentest.md`, exactly when it is chosen. |
| Structure.OutputsDistinct | scripts/engagement_generator.py:413-414 | No two outputs share a path. |
| Structure.OutputsWritable | scripts/engagement_generator.py:443-444 | Once the structure stands, no output path is a directory and every output's parent is one. |
| Structure.WriteOutputs | scripts/engagement_generator.py:368-378 | Writing leaves the directories alone and ends done, on a missing or unreadable template, or on an output that cannot be opened. |
| Structure.FirstMissing | scripts/engagement_generator.py:385-386 | Every template before this position is a file, and the one at it is not. |
| Structure.WriteOutputsStatus | scripts/engagement_generator.py:382-417 | When no output path is blocked (none is a directory and every parent is one) and no template lies inside the folder: writing is done exactly when every template is a file. Otherwise it names the first that is not, as unreadable if it is a directory and as not found otherwise. |
| Structure.WriteOutputsFiles | scripts/engagement_generator.py:380-409 | When no output path is blocked and no template lies inside the folder: exactly the outputs before the first missing template are added. No other file changes, and a well-formed tree stays well formed. |
| Structure.WriteOutputsContents | scripts/engagement_generator.py:380-409 | When no output path is blocked, no template lies inside the folder and the output paths are distinct: each output before the first missing template holds its template rendered with its own pairs. |
| Structure.Build | scripts/engagement_generator.py:340-378 | `create_engagement_structure` on the abstract tree. BuildGuards, BuildMkdirFails, MadeSpec, BuildStatus, BuildWrites and BuildContents characterise it. |
| Structure.BuildGuards | scripts/engagement_generator.py:346-350 | The build is declined exactly when the folder exists and the answer is no. `rmtree` fails exactly when the folder exists as a file and the answer is yes. In both cases the tree is unchanged. |
| Structure.BuildMkdirFails | scripts/engagement_generator.py:352 | `mkdir` fails exactly when the build proceeds and the folder or an ancestor is a file. The tree is then unchanged. |
| Structure.MadeSpec | scripts/engagement_generator.py:344-365 | When the build proceeds (the folder is new, or it is an existing directory and the answer is yes) and no file blocks the folder's `mkdir`: the `mkdir` calls all succeed, the directories inside the folder are exactly the structure, the folder holds no file, and files outside it are as before. |
| Structure.BuildStatus | scripts/engagement_generator.py:385-386 | When the build proceeds (the folder is new, or it is an existing directory and the answer is yes), no file blocks the folder's `mkdir`, and no template lies in the folder or on the path to it: the build is done exactly when every template is a file. Otherwise it names the first template that is not. |
| Structure.BuildWrites | scripts/engagement_generator.py:340-378 | When the build proceeds (the folder is new, or it is an existing directory and the answer is yes), no file blocks the folder's `mkdir`, and no template lies in the folder or on the path to it: the folder holds the structure directories and exactly the outputs before the first missing template, so files written before a failure stay. No file outside the folder changes. Outside it, only the folder's missing ancestors are created as directories. The tree stays well formed. |
| Structure.BuildContents | scripts/engagement_generator.py:368-378 | When the build proceeds (the folder is new, or it is an existing directory and the answer is yes), no file blocks the folder's `mkdir`, and no template lies in the folder or on the path to it: each output before the first missing template holds its template rendered with its pairs. |
| Generator.ReportOf | scripts/engagement_generator.py:326-338 | Success when the build is done or declined. The template dialog exactly for a missing template. The generic error dialog for every other failure. |
| Generator.Generate | scripts/engagement_generator.py:273-287 | A field error is reported exactly when validation fails. It names the first failed check and nothing is changed. |
| Generator.DeclinedStillReportsSuccess | scripts/engagement_generator.py:326-349 | Declining to overwrite leaves the disk as it was, yet the success message is shown. |
| Generator.GenerateCreates | scripts/engagement_generator.py:322-331 | For a valid form, when the build proceeds (the folder is new, or it is an existing directory and the answer is yes), no file blocks the folder's `mkdir`, and no template lies in the folder or on the path to it, and with every template present: success is reported, and the folder holds the structure and every output rendered. |
| Generator.GenerateMissingTemplate | scripts/engagement_generator.py:332-335 | For a valid form, when the build proceeds (the folder is new, or it is an existing directory and the answer is yes), no file blocks the folder's `mkdir`, and no template lies in the folder or on the path to it, and with a first missing template that is not a directory: the template dialog names that template and the templates folder, and the outputs written before it stay. |

## Left out

- The Tk user interface is not modelled: widget layout, the browse dialogs, the status label and the message boxes themselves. The message box is modelled only as the `Report` it shows.
- Obsidian vault detection, `scripts/install_templates.py` and the defaults taken from `datetime.now()` and `os.getenv` are not modelled. These are platform and environment plumbing.
- Real file I/O is replaced by the abstract tree, and the Yes/No dialog by a boolean. Text encodings, permissions and symbolic links are not modelled. Neither is the newline translation of text-mode `open(..., 'r')` at lines 388 and 419, which turns `\r\n` and `\r` into `\n`, nor that of text-mode `open(..., 'w')` at lines 408 and 443, which on Windows writes each `\n` as `\r\n`. The model reads and writes text exactly as stored.
- Strings.Strip and Strings.Lower: ASCII only. `strip` removes the characters `str.isspace` accepts below 128. `lower` maps only `A`-`Z`. Python's full Unicode rules are not modelled.
- Calendar validity of the dates is not modelled. The code never checks it either.
- Paths are sequences of name segments. A name containing `/`, or equal to `.` or `..`, is not normalised as `pathlib` would do it. `FolderRelative` follows the POSIX string form of line 424, where a backslash inside a name is turned into `/` as well.
- Placeholders.FolderRelativeIs: assumes a name without a backslash, so that it can give the value in closed form as `<name>/<phase folder>`.
- Structure.WriteOutputs: a blocked output file is always reported as the generic error. On a real disk, a missing parent directory would raise `FileNotFoundError` and show the template dialog instead. After the structure has been created this cannot happen (Structure.OutputsWritable).
- Structure.BuildStatus: assumes that no template lies inside the engagement folder or on the path to it. Without that assumption, `rmtree` or `mkdir` could change a template before it is read.
- Structure.BuildWrites: assumes that no template lies inside the engagement folder or on the path to it. Without that assumption, `rmtree` or `mkdir` could change a template before it is read.
- Structure.BuildContents: assumes that no template lies inside the engagement folder or on the path to it. Without that assumption, `rmtree` or `mkdir` could change a template before it is read.
- Generator.GenerateCreates: assumes that no template lies inside the engagement folder or on the path to it. Without that assumption, `rmtree` or `mkdir` could change a template before it is read.
- Generator.GenerateMissingTemplate: assumes that no template lies inside the engagement folder or on the path to it. Without that assumption, `rmtree` or `mkdir` could change a template before it is read.
- Placeholders.EngagementsLinkNeedsTitleLeft is stated conditionally. An engagement name can complete a title token with the text around it, so the pair can fire after all.
- The two `mkdir` calls without `parents=True` are modelled like the others, because their parent has always just been created.

=== FILE: engagement.dfy ===
/** The engagement metadata the generator derives from the form: validation
    of the required fields, the date strings, the start year and the tag
    list. */
module Engagement {
  import opened Strings
  import opened FileTree
  import Substitution

  /** The values of the read-only engagement-type combo box. */
  datatype EngagementType = FedRAMP | HIPAA | PciDss | Soc2 | Iso27001 | General | Custom

  /** The text the combo box shows, and hands to the generator, for a type. */
  function TypeLabel(t: EngagementType): string {
    match t
    case FedRAMP => "FedRAMP"
    case HIPAA => "HIPAA"
    case PciDss => "PCI-DSS"
    case Soc2 => "SOC 2"
    case Iso27001 => "ISO 27001"
    case General => "General"
    case Custom => "Custom"
  }

  datatype Phase = External | Internal | WebApp

  /** The phase name used in template and output file names. */
  function PhaseName(p: Phase): string {
    match p
    case External => "External"
    case Internal => "Internal"
    case WebApp => "WebApp"
  }

  /** The phase's tag in the tag list. */
  function PhaseTag(p: Phase): string {
    match p
    case External => "external"
    case Internal => "internal"
    case WebApp => "webapp"
  }

  /** The phase's folder inside the engagement folder. */
  function PhaseDir(p: Phase): string {
    match p
    case External => "01_External"
    case Internal => "02_Internal"
    case WebApp => "02_WebApp"
  }

  /** The three phase check boxes. */
  datatype PhaseChoice = PhaseChoice(external: bool, internal: bool, webapp: bool)

  predicate IsChosen(c: PhaseChoice, p: Phase) {
    match p
    case External => c.external
    case Internal => c.internal
    case WebApp => c.webapp
  }

  /** The phases in the fixed order the generator visits them. */
  const PhaseOrder: seq<Phase> := [External, Internal, WebApp]

  /** The chosen phases, in `PhaseOrder`. */
  function Chosen(c: PhaseChoice): seq<Phase> {
    ChosenAmong(c, PhaseOrder)
  }

  function ChosenAmong(c: PhaseChoice, ps: seq<Phase>): (r: seq<Phase>)
    ensures forall p :: p in r <==> p in ps && IsChosen(c, p)
    ensures |r| <= |ps|
  {
    if ps == [] then []
    else (if IsChosen(c, ps[0]) then [ps[0]] else []) + ChosenAmong(c, ps[1..])
  }

  predicate AnyChosen(c: PhaseChoice) {
    c.external || c.internal || c.webapp
  }

  /** Everything the form holds when "Generate Engagement" is pressed. */
  datatype Form = Form(
    name: string,
    client: string,
    kind: EngagementType,
    startYear: string, startMonth: string, startDay: string,
    endYear: string, endMonth: string, endDay: string,
    assessor: string,
    phases: PhaseChoice,
    dest: Path,
    templates: Path)

  /** The `engagement_data` dictionary, tags included. */
  datatype Data = Data(
    name: string,
    client: string,
    typeLabel: string,
    startDate: string,
    endDate: string,
    assessor: string,
    phases: PhaseChoice,
    dest: Path,
    templates: Path,
    tags: seq<string>)

  /** The three validation messages, in the order they are checked. */
  datatype FormError = MissingName | MissingClient | NoPhase

  datatype Checked = Valid(data: Data) | Invalid(error: FormError)

  /** `f"{year}-{month}-{day}"`. */
  function DateString(year: string, month: string, day: string): string {
    year + "-" + month + "-" + day
  }

  /** `date.split('-')[0]`: the year part of a date string. */
  function YearOf(date: string): string {
    BeforeFirst(date, '-')
  }

  /** The year of `Y-M-D` is `Y` whenever `Y` holds no '-' (as every year the
      combo box offers). */
  lemma YearOfDate(year: string, month: string, day: string)
    requires '-' !in year
    ensures YearOf(DateString(year, month, day)) == year
  {
    assert DateString(year, month, day) == year + ['-'] + (month + "-" + day);
    BeforeFirstOfJoined(year, '-', month + "-" + day);
  }

  /** `s.lower().replace(' ', '-')`: each space becomes '-', each upper-case
      letter its lower-case one, every other character stays. */
  function Slug(s: string): (r: string)
    ensures |r| == |s|
    ensures forall i :: 0 <= i < |s| ==> r[i] == (if s[i] == ' ' then '-' else LowerChar(s[i]))
    ensures ' ' !in r
  {
    LowerPointwise(s);
    Substitution.ReplaceCharPointwise(Lower(s), ' ', '-');
    Substitution.Replace(Lower(s), " ", "-")
  }

  /** The tag list: type and client slugs and the start year, then one tag
      per chosen phase. */
  function Tags(typeLabel: string, client: string, startDate: string, c: PhaseChoice): seq<string> {
    [Slug(typeLabel), Slug(client), YearOf(startDate)]
    + (if c.external then ["external"] else [])
    + (if c.internal then ["internal"] else [])
    + (if c.webapp then ["webapp"] else [])
  }

  /** After the three fixed tags come exactly the chosen phases' tags, in
      phase order, so the list has three more entries than there are chosen
      phases and each phase tag is among them exactly when that phase is
      chosen. */
  lemma TagsShape(typeLabel: string, client: string, startDate: string, c: PhaseChoice)
    ensures var tags := Tags(typeLabel, client, startDate, c);
      && |tags| == 3 + |Chosen(c)|
      && tags[0] == Slug(typeLabel) && tags[1] == Slug(client) && tags[2] == YearOf(startDate)
      && (forall i :: 0 <= i < |Chosen(c)| ==> tags[3 + i] == PhaseTag(Chosen(c)[i]))
      && (forall p :: PhaseTag(p) in tags[3..] <==> IsChosen(c, p))
  {
    var tags := Tags(typeLabel, client, startDate, c);
    var ch := Chosen(c);
    ChosenSpelledOut(c);
    assert tags[3..] == PhaseTags(ch);
    PhaseTagsMembership(c);
  }

  /** The tags of a list of phases, one per phase. */
  function PhaseTags(ps: seq<Phase>): (r: seq<string>)
    ensures |r| == |ps|
    ensures forall i :: 0 <= i < |ps| ==> r[i] == PhaseTag(ps[i])
  {
    if ps == [] then [] else [PhaseTag(ps[0])] + PhaseTags(ps[1..])
  }

  lemma ChosenSpelledOut(c: PhaseChoice)
    ensures Chosen(c) == (if c.external then [External] else [])
      + (if c.internal then [Internal] else [])
      + (if c.webapp then [WebApp] else [])
  {
    var o1 := PhaseOrder[1..];
    var o2 := o1[1..];
    assert o1 == [Internal, WebApp] && o2 == [WebApp] && o2[1..] == [];
    var w := if c.webapp then [WebApp] else [];
    assert ChosenAmong(c, o2) == w + ChosenAmong(c, o2[1..]) == w;
    assert ChosenAmong(c, o1) == (if c.internal then [Internal] else []) + w;
  }

  /** No phase is chosen twice. */
  lemma ChosenDistinct(c: PhaseChoice)
    ensures forall i, j :: 0 <= i < j < |Chosen(c)| ==> Chosen(c)[i] != Chosen(c)[j]
  {
    ChosenSpelledOut(c);
  }

  lemma PhaseTagsMembership(c: PhaseChoice)
    ensures forall p :: PhaseTag(p) in PhaseTags(Chosen(c)) <==> IsChosen(c, p)
  {
    var ch := Chosen(c);
    var ts := PhaseTags(ch);
    forall p ensures PhaseTag(p) in ts <==> IsChosen(c, p) {
      if PhaseTag(p) in ts {
        var i :| 0 <= i < |ch| && ts[i] == PhaseTag(p);
        PhaseTagInjective(ch[i], p);
      }
      if IsChosen(c, p) {
        var i :| 0 <= i < |ch| && ch[i] == p;
        assert ts[i] == PhaseTag(p);
      }
    }
  }

  /** Different phases have different tags. */
  lemma PhaseTagInjective(p: Phase, q: Phase)
    ensures PhaseTag(p) == PhaseTag(q) ==> p == q
  {
    if p != q {
      assert PhaseTag(p)[0] != PhaseTag(q)[0];
    }
  }

  /** The checks and the data of `generate_engagement`: the name and client
      must hold a non-whitespace character and a phase must be chosen, each
      failure reported in that order; accepted data carries the stripped
      fields, the type label, the two dates, the phase boxes, both folders
      and the tags. */
  function Validate(f: Form): (r: Checked)
    ensures r.Valid? <==> !AllSpace(f.name) && !AllSpace(f.client) && AnyChosen(f.phases)
    ensures r == Invalid(MissingName) <==> AllSpace(f.name)
    ensures r == Invalid(MissingClient) <==> !AllSpace(f.name) && AllSpace(f.client)
    ensures r == Invalid(NoPhase) <==> !AllSpace(f.name) && !AllSpace(f.client) && !AnyChosen(f.phases)
    ensures r.Valid? ==>
      && r.data.name == Strip(f.name) && r.data.name != []
      && r.data.client == Strip(f.client) && r.data.client != []
      && r.data.startDate == DateString(f.startYear, f.startMonth, f.startDay)
      && r.data.endDate == DateString(f.endYear, f.endMonth, f.endDay)
      && r.data.typeLabel == TypeLabel(f.kind)
      && r.data.assessor == Strip(f.assessor)
      && r.data.phases == f.phases
      && r.data.dest == f.dest && r.data.templates == f.templates
      && r.data.tags == Tags(TypeLabel(f.kind), r.data.client, r.data.startDate, f.phases)
  {
    if Strip(f.name) == [] then Invalid(MissingName)
    else if Strip(f.client) == [] then Invalid(MissingClient)
    else if !(f.phases.external || f.phases.internal || f.phases.webapp) then Invalid(NoPhase)
    else
      var client := Strip(f.client);
      var start := DateString(f.startYear, f.startMonth, f.startDay);
      Valid(Data(
        Strip(f.name), client, TypeLabel(f.kind), start,
        DateString(f.endYear, f.endMonth, f.endDay),
        Strip(f.assessor), f.phases, f.dest, f.templates,
        Tags(TypeLabel(f.kind), client, start, f.phases)))
  }
}

=== FILE: filetree.dfy ===
/** An abstract directory tree standing in for the disk: a set of directory
    paths and a map from file paths to their text. Paths are sequences of
    segments; `dest / name` is `dest + [name]`. */
module FileTree {

  type Path = seq<string>

  datatype Tree = Tree(dirs: set<Path>, files: map<Path, string>)

  /** `p` lies at or below `root`. */
  predicate Under(p: Path, root: Path) {
    |root| <= |p| && p[..|root|] == root
  }

  /** `Path.exists()`: a directory or a file is there. */
  predicate Exists(t: Tree, p: Path) {
    p in t.dirs || p in t.files
  }

  /** As on a real disk: every ancestor of every entry is a directory, and no
      path is both a directory and a file. */
  predicate Wf(t: Tree) {
    && (forall p, i | p in t.dirs && 0 < i < |p| :: p[..i] in t.dirs)
    && (forall p, i | p in t.files && 0 < i < |p| :: p[..i] in t.dirs)
    && (forall p | p in t.dirs :: p !in t.files)
  }

  /** `p.mkdir(parents=True, exist_ok=True)` raises: `p` or one of its
      ancestors is a file. */
  predicate Blocked(files: map<Path, string>, p: Path) {
    exists i :: 0 < i <= |p| && p[..i] in files
  }

  /** `open(p, 'w')` raises: `p` is a directory, or its parent is not one. */
  predicate WriteBlocked(dirs: set<Path>, p: Path) {
    p in dirs || (|p| > 1 && p[..|p| - 1] !in dirs)
  }

  /** The non-empty prefixes of `p`, `p` itself included. */
  function Ancestors(p: Path): set<Path> {
    set i | 0 < i <= |p| :: p[..i]
  }

  lemma AncestorsAre(p: Path)
    ensures forall q :: q in Ancestors(p) <==> q != [] && Under(p, q)
  {
    forall q | q != [] && Under(p, q) ensures q in Ancestors(p) {
      assert q == p[..|q|];
    }
  }

  /** `p.mkdir(parents=True, exist_ok=True)` when it succeeds: `p` and all
      its non-empty ancestors become directories; files are untouched. */
  function MakeDirs(t: Tree, p: Path): (r: Tree)
    ensures r.files == t.files
    ensures forall q :: q in r.dirs <==> q in t.dirs || (q != [] && Under(p, q))
    ensures Wf(t) && !Blocked(t.files, p) ==> Wf(r)
  {
    AncestorsAre(p);
    MakeDirsWf(t, p);
    Tree(t.dirs + Ancestors(p), t.files)
  }

  lemma MakeDirsWf(t: Tree, p: Path)
    ensures Wf(t) && !Blocked(t.files, p) ==> Wf(Tree(t.dirs + Ancestors(p), t.files))
  {
    var r := Tree(t.dirs + Ancestors(p), t.files);
    if Wf(t) && !Blocked(t.files, p) {
      forall q, i | q in r.dirs && 0 < i < |q| ensures q[..i] in r.dirs {
        if q !in t.dirs {
          var k :| 0 < k <= |p| && q == p[..k];
          assert q[..i] == p[..i];
        }
      }
      forall q | q in r.dirs ensures q !in r.files {
        if q !in t.dirs {
          var k :| 0 < k <= |p| && q == p[..k];
        }
      }
    }
  }

  /** `shutil.rmtree(root)`: every directory and file at or below `root` is
      gone, everything else stays as it was. */
  function RemoveTree(t: Tree, root: Path): (r: Tree)
    ensures forall q :: q in r.dirs <==> q in t.dirs && !Under(q, root)
    ensures forall q :: q in r.files <==> q in t.files && !Under(q, root)
    ensures forall q :: q in r.files ==> r.files[q] == t.files[q]
    ensures Wf(t) ==> Wf(r)
  {
    RemoveTreeWf(t, root);
    Tree(set q | q in t.dirs && !Under(q, root),
         map q | q in t.files && !Under(q, root) :: t.files[q])
  }

  lemma RemoveTreeWf(t: Tree, root: Path)
    ensures Wf(t) ==> Wf(Tree(set q | q in t.dirs && !Under(q, root),
                              map q | q in t.files && !Under(q, root) :: t.files[q]))
  {
    var r := Tree(set q | q in t.dirs && !Under(q, root),
                  map q | q in t.files && !Under(q, root) :: t.files[q]);
    if Wf(t) {
      forall q, i | q in r.dirs && 0 < i < |q| ensures q[..i] in r.dirs {
        if Under(q[..i], root) {
          UnderAncestor(q, i, root);
        }
      }
      forall q, i | q in r.files && 0 < i < |q| ensures q[..i] in r.dirs {
        if Under(q[..i], root) {
          UnderAncestor(q, i, root);
        }
      }
    }
  }

  /** If an ancestor of `q` lies below `root`, so does `q`. */
  lemma UnderAncestor(q: Path, i: nat, root: Path)
    requires i <= |q| && Under(q[..i], root)
    ensures Under(q, root)
  {
    assert q[..|root|] == q[..i][..|root|];
  }

  /** `open(p, 'w').write(content)` when it succeeds: `p` now holds
      `content`, no other file and no directory changes. */
  function WriteFile(t: Tree, p: Path, content: string): (r: Tree)
    ensures r.dirs == t.dirs
    ensures p in r.files && r.files[p] == content
    ensures forall q :: q != p ==> (q in r.files <==> q in t.files)
    ensures forall q :: q != p && q in t.files ==> r.files[q] == t.files[q]
    ensures Wf(t) && !WriteBlocked(t.dirs, p) ==> Wf(r)
  {
    WriteFileWf(t, p, content);
    t.(files := t.files[p := content])
  }

  lemma WriteFileWf(t: Tree, p: Path, content: string)
    ensures Wf(t) && !WriteBlocked(t.dirs, p) ==> Wf(t.(files := t.files[p := content]))
  {
    if Wf(t) && !WriteBlocked(t.dirs, p) && |p| > 1 {
      forall i | 0 < i < |p| ensures p[..i] in t.dirs {
        assert p[..i] == p[..|p| - 1][..i];
      }
    }
  }
}

=== FILE: generator.dfy ===
/** `generate_engagement`: validate the form, build the engagement, and end
    with one message box. */
module Generator {
  import opened FileTree
  import opened Templates
  import opened Engagement
  import opened Structure

  /** The message box the button press ends with. */
  datatype Report =
    | FieldMissing(error: FormError)
    | Created(name: string, location: Path)
    | TemplateError(template: Path, templates: Path)
    | Failed(cause: Status)

  datatype Outcome = Outcome(tree: Tree, report: Report)

  /** The message for how the build ended: success (also when the user
      declined to overwrite, since the build then returns normally), the
      template dialog for a missing template (`FileNotFoundError`), and the
      generic error dialog for every other exception. */
  function ReportOf(d: Data, s: Status): (r: Report)
    ensures r.Created? <==> s == Done || s == Declined
    ensures r.TemplateError? <==> s.TemplateNotFound?
    ensures r.Failed? <==> s.ReadFailed? || s.RemoveFailed? || s.MkdirFailed? || s.WriteFailed?
    ensures !r.FieldMissing?
  {
    match s
    case Done => Created(d.name, EngagementFolder(d))
    case Declined => Created(d.name, EngagementFolder(d))
    case TemplateNotFound(p) => TemplateError(p, d.templates)
    case _ => Failed(s)
  }

  /** A rejected form changes nothing and names the first failed check. */
  function Generate(t: Tree, f: Form, overwrite: bool): (r: Outcome)
    ensures r.report.FieldMissing? <==> Validate(f).Invalid?
    ensures r.report.FieldMissing? ==> r.tree == t && r.report.error == Validate(f).error
  {
    match Validate(f)
    case Invalid(e) => Outcome(t, FieldMissing(e))
    case Valid(d) =>
      var b := Build(t, d, overwrite);
      Outcome(b.tree, ReportOf(d, b.status))
  }

  /** A valid form goes on to the build, whose ending decides the message. */
  lemma GenerateBuilds(t: Tree, f: Form, d: Data, overwrite: bool)
    requires Validate(f) == Valid(d)
    ensures var b := Build(t, d, overwrite);
      Generate(t, f, overwrite) == Outcome(b.tree, ReportOf(d, b.status))
  {
  }

  /** Declining to overwrite an existing folder leaves the tree as it was,
      yet the success message is shown. */
  lemma DeclinedStillReportsSuccess(t: Tree, f: Form, d: Data)
    requires Validate(f) == Valid(d) && Exists(t, EngagementFolder(d))
    ensures Generate(t, f, false) == Outcome(t, Created(d.name, EngagementFolder(d)))
  {
    GenerateBuilds(t, f, d, false);
    BuildGuards(t, d, false);
  }

  /** A valid form on a disk where the folder can be made and every template
      is a file: success is reported, and the folder holds the structure
      and one rendered file per output. */
  lemma GenerateCreates(t: Tree, f: Form, d: Data, overwrite: bool)
    requires Validate(f) == Valid(d) && Wf(t)
    requires Proceeds(t, EngagementFolder(d), overwrite) && !Blocked(t.files, EngagementFolder(d))
    requires TemplatesApart(d.templates, EngagementFolder(d), Outputs(d))
    requires forall k :: 0 <= k < |Outputs(d)| ==> TemplatePath(d.templates, Outputs(d)[k]) in t.files
    ensures var folder := EngagementFolder(d);
      var outs := Outputs(d);
      var r := Generate(t, f, overwrite);
      && r.report == Created(d.name, folder)
      && Wf(r.tree)
      && (forall q :: Under(q, folder) ==> (q in r.tree.dirs <==> q[|folder|..] in StructureDirs(d.phases)))
      && (forall q :: Under(q, folder) ==> (q in r.tree.files <==> q in WrittenPaths(folder, outs, |outs|)))
      && (forall k :: 0 <= k < |outs| ==>
            && folder + outs[k].rel in r.tree.files
            && r.tree.files[folder + outs[k].rel] == Render(t.files[TemplatePath(d.templates, outs[k])], outs[k].pairs))
  {
    var outs := Outputs(d);
    assert FirstMissing(t.files, d.templates, outs) == |outs|;
    GenerateBuilds(t, f, d, overwrite);
    BuildStatus(t, d, overwrite);
    BuildWrites(t, d, overwrite);
    BuildContents(t, d, overwrite);
  }

  /** A valid form whose `n`-th template is missing: the template dialog
      names that template and the templates folder, and the outputs before
      it are already written. */
  lemma GenerateMissingTemplate(t: Tree, f: Form, d: Data, overwrite: bool)
    requires Validate(f) == Valid(d) && Wf(t)
    requires Proceeds(t, EngagementFolder(d), overwrite) && !Blocked(t.files, EngagementFolder(d))
    requires TemplatesApart(d.templates, EngagementFolder(d), Outputs(d))
    requires var n := FirstMissing(t.files, d.templates, Outputs(d));
      n < |Outputs(d)| && TemplatePath(d.templates, Outputs(d)[n]) !in t.dirs
    ensures var folder := EngagementFolder(d);
      var outs := Outputs(d);
      var n := FirstMissing(t.files, d.templates, outs);
      var r := Generate(t, f, overwrite);
      && r.report == TemplateError(TemplatePath(d.templates, outs[n]), d.templates)
      && (forall q :: Under(q, folder) ==> (q in r.tree.files <==> q in WrittenPaths(folder, outs, n)))
  {
    GenerateBuilds(t, f, d, overwrite);
    BuildStatus(t, d, overwrite);
    BuildWrites(t, d, overwrite);
  }
}

=== FILE: placeholders.dfy ===
/** The two fixed replacement lists of the generator, one for the engagement
    overview and one for each phase file, in the insertion order of the
    source's dict literals, and what that order implies: the long tags-line
    keys contain the year token, which is replaced first, so they never
    match. */
module Placeholders {
  import opened Strings
  import opened Substitution
  import opened Templates
  import opened Engagement

  const TitleToken := "<%tp.file.title%>"
  const ClientPrompt := "<%tp.system.prompt(\"Client Name\")%>"
  const TypeSuggester := "<%tp.system.suggester([\"FedRAMP\", \"HIPAA\", \"PCI-DSS\", \"SOC 2\", \"ISO 27001\", \"General\"], \"Select Engagement Type\")%>"
  const DateToken := "<%tp.date.now(\"YYYY-MM-DD\")%>"
  const EndDatePrompt := "<%tp.system.prompt(\"Expected End Date (YYYY-MM-DD)\")%>"
  const YearToken := "<%tp.date.now(\"YYYY\")%>"
  const OverviewTagsLine := "tags: [engagement, " + YearToken + "]"
  const EngagementsLink := "Engagements/" + TitleToken

  const RootFolderToken := "<%tp.file.folder(true).split('/')[0]%>"
  const FolderToken := "<%tp.file.folder(true)%>"
  const ScopePrompt := "<%tp.system.prompt(\"Target Scope/IP Range\")%>"
  const ProjectPrompt := "<%tp.system.prompt(\"Client/Project Name\")%>"
  const AppPrompt := "<%tp.system.prompt(\"Application Name\")%>"
  const UrlPrompt := "<%tp.system.prompt(\"Target URL\")%>"
  const LowUserPrompt := "<%tp.system.prompt(\"Low privilege username:password\")%>"
  const AdminPrompt := "<%tp.system.prompt(\"Admin username:password\")%>"

  /** The tags line a phase template carries, which names the phase by its
      tag (the lower-cased phase name, as `PhaseTagsLineLowersName` shows). */
  function PhaseTagsLine(p: Phase): string {
    "tags: [pentest, fedramp, " + PhaseTag(p) + ", " + YearToken + "]"
  }

  /** The phase tags-line key is built from the lower-cased phase name, and
      that name is the phase's tag. */
  lemma PhaseTagsLineLowersName(p: Phase)
    ensures Lower(PhaseName(p)) == PhaseTag(p)
    ensures PhaseTagsLine(p) == "tags: [pentest, fedramp, " + Lower(PhaseName(p)) + ", " + YearToken + "]"
  {
    LowerPointwise(PhaseName(p));
  }

  /** `', '.join(tags)`. */
  function TagsText(d: Data): string {
    Join(d.tags, ", ")
  }

  /** The start year as the maps use it: `start_date.split('-')[0]`. */
  function Year(d: Data): string {
    YearOf(d.startDate)
  }

  /** The phase folder relative to the destination, with '\' turned into '/'. */
  function FolderRelative(d: Data, p: Phase): string {
    Replace(d.name + "/" + PhaseDir(p), "\\", "/")
  }

  function OverviewReplacements(d: Data): Replacements {
    [ (TitleToken, d.name),
      (ClientPrompt, d.client),
      (TypeSuggester, d.typeLabel),
      (DateToken, d.startDate),
      (EndDatePrompt, d.endDate),
      (YearToken, Year(d)),
      (OverviewTagsLine, "tags: [" + TagsText(d) + "]"),
      (EngagementsLink, "Engagements/" + d.name) ]
  }

  /** The phase list: folder, date and year tokens, then the phase tags
      line, then the prompts with their fixed or client values. */
  function PhaseReplacements(d: Data, p: Phase): Replacements {
    PhaseLeading(d, p) + [(PhaseTagsLine(p), "tags: [" + TagsText(d) + "]")] + PhasePrompts(d)
  }

  function PhaseLeading(d: Data, p: Phase): Replacements {
    [ (RootFolderToken, d.name),
      (FolderToken, FolderRelative(d, p)),
      (DateToken, d.startDate),
      (YearToken, Year(d)) ]
  }

  function PhasePrompts(d: Data): Replacements {
    [ (ScopePrompt, "[Enter target scope]"),
      (ProjectPrompt, d.client),
      (AppPrompt, "[Enter application name]"),
      (UrlPrompt, "[Enter target URL]"),
      (LowUserPrompt, "[Enter low user credentials]"),
      (AdminPrompt, "[Enter admin credentials]") ]
  }

  /** A year that the year-token pass is sure to wipe out: non-empty and
      sharing no character with the token. */
  predicate PlainYear(y: string) {
    y != [] && Foreign(y, YearToken)
  }

  predicate AllDigits(s: string) {
    forall i :: 0 <= i < |s| ==> '0' <= s[i] <= '9'
  }

  /** Digit years, such as every year the start-year combo box offers, are
      plain: the year token holds no digit. */
  lemma DigitYearIsPlain(y: string)
    requires y != [] && AllDigits(y)
    ensures PlainYear(y)
  {
    forall i | 0 <= i < |y| ensures y[i] !in YearToken {
      var c := y[i];
      assert '0' <= c <= '9';
    }
  }

  /** The text the first `j + 1` pairs leave has no occurrence of the key of
      pair `j` when that pair's value is non-empty and foreign to its key. */
  lemma GoneAfterPair(content: string, pairs: Replacements, j: nat)
    requires j < |pairs| && pairs[j].0 != []
    requires pairs[j].1 != [] && Foreign(pairs[j].1, pairs[j].0)
    ensures !Contains(Render(content, pairs[..j + 1]), pairs[j].0)
  {
    var before := Render(content, pairs[..j]);
    assert pairs[..j + 1] == pairs[..j] + [pairs[j]];
    RenderAppend(content, pairs[..j], [pairs[j]]);
    assert Render(before, [pairs[j]]) == Replace(before, pairs[j].0, pairs[j].1);
    ReplaceEliminates(before, pairs[j].0, pairs[j].1);
  }

  /** In the overview list, the tags-line key (position 6) contains the year
      token, which position 5 has already replaced by a plain year: the
      tags-line pair never fires and the derived tag list never reaches the
      overview. */
  lemma OverviewTagsLineNeverFires(content: string, d: Data)
    requires PlainYear(Year(d))
    ensures var pairs := OverviewReplacements(d);
      Render(content, pairs) == Render(content, pairs[..6] + pairs[7..])
  {
    var pairs := OverviewReplacements(d);
    assert pairs[5] == (YearToken, Year(d));
    ContainsInfix("tags: [engagement, ", YearToken, "]");
    assert Contains(pairs[6].0, YearToken);
    YearPairKillsNext(content, pairs, 5);
  }

  /** In the phase list, the phase tags-line key (position 4) contains the
      year token replaced at position 3, so it never fires either. */
  lemma PhaseTagsLineNeverFires(content: string, d: Data, p: Phase)
    requires PlainYear(Year(d))
    ensures var pairs := PhaseReplacements(d, p);
      Render(content, pairs) == Render(content, pairs[..4] + pairs[5..])
  {
    var pairs := PhaseReplacements(d, p);
    PhaseTagsLineHoldsYearToken(p);
    YearPairKillsNext(content, pairs, 3);
  }

  /** A pair right after a year-token pair with a plain year, whose key holds
      the year token, never fires. */
  lemma YearPairKillsNext(content: string, pairs: Replacements, j: nat)
    requires j + 1 < |pairs| && pairs[j].0 == YearToken && PlainYear(pairs[j].1)
    requires Contains(pairs[j + 1].0, YearToken)
    ensures Render(content, pairs) == Render(content, pairs[..j + 1] + pairs[j + 2..])
  {
    GoneAfterPair(content, pairs, j);
    RenderDropsDeadPair(content, pairs, j + 1, YearToken);
  }

  lemma PhaseTagsLineHoldsYearToken(p: Phase)
    ensures Contains(PhaseTagsLine(p), YearToken)
  {
    var head := "tags: [pentest, fedramp, " + PhaseTag(p) + ", ";
    assert PhaseTagsLine(p) == head + YearToken + "]";
    ContainsInfix(head, YearToken, "]");
  }

  /** The `Engagements/<title>` key (position 7) contains the title token
      replaced at position 0: whenever no title token is left by the time its
      turn comes, the pair does nothing. */
  lemma EngagementsLinkNeedsTitleLeft(content: string, d: Data)
    requires !Contains(Render(content, OverviewReplacements(d)[..7]), TitleToken)
    ensures var pairs := OverviewReplacements(d);
      Render(content, pairs) == Render(content, pairs[..7])
  {
    var pairs := OverviewReplacements(d);
    ContainsInfix("Engagements/", TitleToken, []);
    assert EngagementsLink + [] == EngagementsLink;
    RenderDropsDeadPair(content, pairs, 7, TitleToken);
    assert pairs[..7] + pairs[8..] == pairs[..7];
  }

  /** The overview template's own tags line keeps its template tags: with a
      digit year it renders to `tags: [engagement, <year>]`, not to the
      derived tag list. */
  lemma OverviewTagsLineKeepsTemplateTags(d: Data)
    requires Year(d) != [] && AllDigits(Year(d))
    ensures Render(OverviewTagsLine, OverviewReplacements(d)) == "tags: [engagement, " + Year(d) + "]"
  {
    var pairs := OverviewReplacements(d);
    var y := Year(d);
    var after := "tags: [engagement, " + y + "]";
    FirstFiveMissTagsLine(d);
    assert pairs == pairs[..5] + pairs[5..];
    RenderAppend(OverviewTagsLine, pairs[..5], pairs[5..]);
    YearPassOnTagsLine(y);
    LastTwoMissYearLine(d);
    assert pairs[5..] == [pairs[5]] + pairs[6..];
    assert pairs[5] == (YearToken, y);
  }

  lemma FirstFiveMissTagsLine(d: Data)
    ensures Render(OverviewTagsLine, OverviewReplacements(d)[..5]) == OverviewTagsLine
  {
    var pairs := OverviewReplacements(d)[..5];
    TagsLineLacksTitle();
    TagsLineLacksClientPrompt();
    TagsLineLacksDateToken();
    assert |OverviewTagsLine| < |TypeSuggester| && |OverviewTagsLine| < |EndDatePrompt|;
    assert forall i :: 0 <= i < 5 ==> !Contains(OverviewTagsLine, pairs[i].0);
    RenderSkipsAbsent(OverviewTagsLine, pairs);
  }

  lemma TagsLineLacksTitle()
    ensures !Contains(OverviewTagsLine, TitleToken)
  {
    assert 'f' == TitleToken[5];
    MissingCharRulesOut(OverviewTagsLine, TitleToken, 'f');
  }

  lemma TagsLineLacksClientPrompt()
    ensures !Contains(OverviewTagsLine, ClientPrompt)
  {
    assert 'C' == ClientPrompt[20];
    MissingCharRulesOut(OverviewTagsLine, ClientPrompt, 'C');
  }

  lemma TagsLineLacksDateToken()
    ensures !Contains(OverviewTagsLine, DateToken)
  {
    assert 'M' == DateToken[20];
    MissingCharRulesOut(OverviewTagsLine, DateToken, 'M');
  }

  lemma YearPassOnTagsLine(y: string)
    ensures Replace(OverviewTagsLine, YearToken, y) == "tags: [engagement, " + y + "]"
  {
    var head := "tags: [engagement, ";
    assert OverviewTagsLine == head + (YearToken + "]");
    assert '<' !in head;
    ReplaceSkipsPrefix(head, YearToken + "]", YearToken, y);
    assert (YearToken + "]")[..|YearToken|] == YearToken;
    assert (YearToken + "]")[|YearToken|..] == "]";
  }

  lemma LastTwoMissYearLine(d: Data)
    requires AllDigits(Year(d))
    ensures var after := "tags: [engagement, " + Year(d) + "]";
      Render(after, OverviewReplacements(d)[6..]) == after
  {
    var head := "tags: [engagement, ";
    var y := Year(d);
    var after := head + y + "]";
    forall i | 0 <= i < |after| ensures after[i] != '<' {
      if i < |head| {
        assert after[i] == head[i];
      } else if i < |head| + |y| {
        assert after[i] == y[i - |head|];
      }
    }
    assert '<' == OverviewTagsLine[19] == EngagementsLink[12];
    MissingCharRulesOut(after, OverviewTagsLine, '<');
    MissingCharRulesOut(after, EngagementsLink, '<');
    RenderSkipsAbsent(after, OverviewReplacements(d)[6..]);
  }

  /** The folder placeholder of a phase file is `<name>/<phase folder>`
      when the name holds no backslash. */
  lemma FolderRelativeIs(d: Data, p: Phase)
    requires '\\' !in d.name
    ensures FolderRelative(d, p) == d.name + "/" + PhaseDir(p)
  {
    var text := d.name + "/" + PhaseDir(p);
    assert '\\' !in text by {
      assert forall i :: 0 <= i < |text| && i >= |d.name| ==> text[i] != '\\';
      assert forall i :: 0 <= i < |d.name| ==> text[i] == d.name[i];
    }
    MissingCharRulesOut(text, "\\", '\\');
    ReplaceAbsent(text, "\\", "/");
  }

  /** With a digit year, as the start-year combo box offers, neither
      tags-line pair ever fires. */
  lemma DigitYearSilencesTagsLines(d: Data, p: Phase, content: string)
    requires Year(d) != [] && AllDigits(Year(d))
    ensures var pairs := OverviewReplacements(d);
      Render(content, pairs) == Render(content, pairs[..6] + pairs[7..])
    ensures var pairs := PhaseReplacements(d, p);
      Render(content, pairs) == Render(content, pairs[..4] + pairs[5..])
  {
    DigitYearIsPlain(Year(d));
    OverviewTagsLineNeverFires(content, d);
    PhaseTagsLineNeverFires(content, d, p);
  }

  /** The start year picked in the form, when it has no '-' (as every year
      of the combo box), is both the data's year and its third tag. */
  lemma StartYearIsYear(f: Form, d: Data)
    requires Validate(f) == Valid(d)
    requires AllDigits(f.startYear)
    ensures Year(d) == f.startYear && d.tags[2] == f.startYear
  {
    assert '-' !in f.startYear by {
      forall i | 0 <= i < |f.startYear| ensures f.startYear[i] != '-' {
        assert '0' <= f.startYear[i] <= '9';
      }
    }
    YearOfDate(f.startYear, f.startMonth, f.startDay);
    TagsShape(d.typeLabel, d.client, d.startDate, d.phases);
  }
}

=== FILE: strings.dfy ===
/** ASCII versions of the Python string helpers the engagement generator uses:
    `str.strip()`, `str.lower()`, `str.split(sep)[0]` and `sep.join(parts)`. */
module Strings {

  /** Python's `str.isspace()` restricted to ASCII: tab, line feed, vertical tab,
      form feed, carriage return, the four information separators and space. */
  predicate IsSpace(c: char) {
    c == ' ' || '\t' <= c <= '\r' || '\U{1C}' <= c <= '\U{1F}'
  }

  predicate AllSpace(s: string) {
    forall i :: 0 <= i < |s| ==> IsSpace(s[i])
  }

  /** The number of whitespace characters `s` starts with. */
  function Indent(s: string): (n: nat)
    ensures n <= |s| && AllSpace(s[..n])
    ensures n == |s| || !IsSpace(s[n])
  {
    if |s| > 0 && IsSpace(s[0]) then 1 + Indent(s[1..]) else 0
  }

  /** The number of whitespace characters `s` ends with. */
  function Outdent(s: string): (n: nat)
    ensures n <= |s| && AllSpace(s[|s| - n..])
    ensures n == |s| || !IsSpace(s[|s| - n - 1])
  {
    if |s| > 0 && IsSpace(s[|s| - 1]) then 1 + Outdent(s[..|s| - 1]) else 0
  }

  /** `s.strip()`: the piece of `s` left after cutting whitespace off both
      ends. What was cut is whitespace, what is left neither starts nor ends
      with whitespace, and it is empty exactly when `s` is all whitespace. */
  function Strip(s: string): (r: string)
    ensures |r| <= |s| - Indent(s) && r == s[Indent(s)..Indent(s) + |r|]
    ensures AllSpace(s[Indent(s) + |r|..])
    ensures r == [] || (!IsSpace(r[0]) && !IsSpace(r[|r| - 1]))
    ensures r == [] <==> AllSpace(s)
  {
    var rest := s[Indent(s)..];
    rest[..|rest| - Outdent(rest)]
  }

  predicate IsUpper(c: char) { 'A' <= c <= 'Z' }

  function LowerChar(c: char): char {
    if IsUpper(c) then (c as int + 32) as char else c
  }

  /** `s.lower()` on ASCII: same length, no upper-case letter left, and every
      character that was not an upper-case letter is kept in place. */
  function Lower(s: string): (r: string)
    ensures |r| == |s|
    ensures forall i :: 0 <= i < |r| ==> !IsUpper(r[i])
    ensures forall i :: 0 <= i < |s| && !IsUpper(s[i]) ==> r[i] == s[i]
  {
    if s == [] then [] else [LowerChar(s[0])] + Lower(s[1..])
  }

  /** `Lower` maps each character by `LowerChar`. */
  lemma {:induction false} LowerPointwise(s: string)
    ensures forall i :: 0 <= i < |s| ==> Lower(s)[i] == LowerChar(s[i])
  {
    if s != [] {
      LowerPointwise(s[1..]);
      assert forall i :: 0 < i < |s| ==> Lower(s)[i] == Lower(s[1..])[i - 1];
    }
  }

  /** `s.split(sep)[0]`: the longest prefix of `s` without `sep`; it is
      either all of `s` or is followed in `s` by `sep`. */
  function BeforeFirst(s: string, sep: char): (r: string)
    ensures |r| <= |s| && r == s[..|r|]
    ensures sep !in r
    ensures r == s || s[|r|] == sep
  {
    if s == [] || s[0] == sep then [] else [s[0]] + BeforeFirst(s[1..], sep)
  }

  /** The field before the first separator of `head + [sep] + tail` is `head`,
      provided `head` itself holds no separator. */
  lemma {:induction false} BeforeFirstOfJoined(head: string, sep: char, tail: string)
    requires sep !in head
    ensures BeforeFirst(head + [sep] + tail, sep) == head
  {
    if head != [] {
      assert (head + [sep] + tail)[1..] == head[1..] + [sep] + tail;
      BeforeFirstOfJoined(head[1..], sep, tail);
    }
  }

  /** `sep.join(parts)`. */
  function Join(parts: seq<string>, sep: string): string {
    if |parts| == 0 then []
    else if |parts| == 1 then parts[0]
    else parts[0] + sep + Join(parts[1..], sep)
  }

  /** Joining one more part appends the separator and that part, so the
      joined text is built left to right with a separator between each two
      neighbouring parts and none at either end. */
  lemma {:induction false} JoinAppend(parts: seq<string>, x: string, sep: string)
    requires parts != []
    ensures Join(parts + [x], sep) == Join(parts, sep) + sep + x
    decreases |parts|
  {
    if |parts| > 1 {
      assert (parts + [x])[1..] == parts[1..] + [x];
      JoinAppend(parts[1..], x, sep);
    }
  }

  /** The joined text starts with the first part and ends with the last, and
      its length is the parts' lengths plus one separator per gap. */
  lemma {:induction false} JoinEnds(parts: seq<string>, sep: string)
    requires parts != []
    ensures parts[0] <= Join(parts, sep)
    ensures |Join(parts, sep)| == TotalLength(parts) + (|parts| - 1) * |sep|
    ensures var r := Join(parts, sep); var last := parts[|parts| - 1];
      |last| <= |r| && r[|r| - |last|..] == last
    decreases |parts|
  {
    if |parts| > 1 {
      JoinEnds(parts[1..], sep);
      var r := Join(parts, sep);
      var rest := Join(parts[1..], sep);
      var last := parts[|parts| - 1];
      assert parts[1..][|parts| - 2] == last;
      assert r == parts[0] + sep + rest;
      assert r[|r| - |last|..] == rest[|rest| - |last|..];
    }
  }

  /** The summed length of the parts. */
  function TotalLength(parts: seq<string>): nat {
    if parts == [] then 0 else |parts[0]| + TotalLength(parts[1..])
  }
}

=== FILE: structure.dfy ===
/** `create_engagement_structure` and the two file writers it calls: the
    overwrite guard, the directory tree, and one rendered file per output,
    stopping at the first step that raises. */
module Structure {
  import opened FileTree
  import opened Templates
  import opened Engagement
  import opened Placeholders

  const AttachmentsDir := "_Attachments"
  const FindingsDir := "03_Findings"
  const OverviewFile := "00_Engagement_Overview.md"
  const OverviewTemplate := "TPL_Engagement_Overview.md"

  function PhaseTemplate(p: Phase): string {
    "TPL_" + PhaseName(p) + "_Pentest.md"
  }

  function PhaseFile(name: string, p: Phase): string {
    name + "_" + PhaseName(p) + ".md"
  }

  /** `dest_path / engagement_name`. */
  function EngagementFolder(d: Data): Path {
    d.dest + [d.name]
  }

  /** One file to write: its path relative to the engagement folder, the
      template it is rendered from, and the pairs it is rendered with. */
  datatype Output = Output(rel: Path, template: string, pairs: Replacements)

  function OverviewOutput(d: Data): Output {
    Output([OverviewFile], OverviewTemplate, OverviewReplacements(d))
  }

  function PhaseOutput(d: Data, p: Phase): Output {
    Output([PhaseDir(p), PhaseFile(d.name, p)], PhaseTemplate(p), PhaseReplacements(d, p))
  }

  /** The files in the order they are written: the overview, then one file
      per chosen phase in phase order. */
  function Outputs(d: Data): seq<Output> {
    var ps := Chosen(d.phases);
    [OverviewOutput(d)] + seq(|ps|, i requires 0 <= i < |ps| => PhaseOutput(d, ps[i]))
  }

  /** The directories the structure consists of, relative to the engagement
      folder: the folder itself, `_Attachments`, `03_Findings`, and for each
      chosen phase its folder and the folder's `_Attachments`. */
  function StructureDirs(c: PhaseChoice): set<Path> {
    {[], [AttachmentsDir], [FindingsDir]}
    + (if c.external then {[PhaseDir(External)], [PhaseDir(External), AttachmentsDir]} else {})
    + (if c.internal then {[PhaseDir(Internal)], [PhaseDir(Internal), AttachmentsDir]} else {})
    + (if c.webapp then {[PhaseDir(WebApp)], [PhaseDir(WebApp), AttachmentsDir]} else {})
  }

  /** How a build ends. `Done` is also the state of a build still under
      way. `ReadFailed` is a template path that exists but is a directory:
      the existence check passes and reading it raises. The last three are
      the `OSError`s of `rmtree`, `mkdir` and opening the output file. */
  datatype Status =
    | Done
    | Declined
    | TemplateNotFound(template: Path)
    | ReadFailed(template: Path)
    | RemoveFailed(path: Path)
    | MkdirFailed(path: Path)
    | WriteFailed(path: Path)

  datatype Built = Built(tree: Tree, status: Status)

  /** One `mkdir(parents=True, exist_ok=True)` of a build that may already
      have stopped. */
  function Mkdir(b: Built, p: Path): (r: Built)
    ensures r.tree.files == b.tree.files
    ensures r.status == Done <==> b.status == Done && !Blocked(b.tree.files, p)
  {
    if b.status != Done then b
    else if Blocked(b.tree.files, p) then Built(b.tree, MkdirFailed(p))
    else Built(MakeDirs(b.tree, p), Done)
  }

  /** The directories the `mkdir` calls name, relative to the engagement
      folder, in source order. */
  function StructureRels(c: PhaseChoice): seq<Path> {
    [[], [AttachmentsDir], [FindingsDir]]
    + (if c.external then [[PhaseDir(External), AttachmentsDir]] else [])
    + (if c.internal then [[PhaseDir(Internal), AttachmentsDir]] else [])
    + (if c.webapp then [[PhaseDir(WebApp), AttachmentsDir]] else [])
  }

  /** `mkdir` of each `folder + rels[k]` in turn, stopping at the first that
      raises. */
  function MkdirAll(b: Built, folder: Path, rels: seq<Path>): (r: Built)
    ensures r.tree.files == b.tree.files
    ensures b.status != Done ==> r == b
    ensures b.status == Done ==> r.status == Done || r.status.MkdirFailed?
    decreases |rels|
  {
    if rels == [] then b else MkdirAll(Mkdir(b, folder + rels[0]), folder, rels[1..])
  }

  /** The `mkdir` calls of the structure. The two without `parents=True` act
      the same here, because their parent was made just before. */
  function CreateDirs(t: Tree, folder: Path, c: PhaseChoice): (r: Built)
    ensures r.tree.files == t.files
    ensures r.status == Done || r.status.MkdirFailed?
  {
    MkdirAll(Built(t, Done), folder, StructureRels(c))
  }

  function TemplatePath(tdir: Path, o: Output): Path {
    tdir + [o.template]
  }

  /** Renders and writes the outputs in order, stopping at the first whose
      template is not a readable file or whose output cannot be opened.
      Files written before that stay. */
  function WriteOutputs(t: Tree, folder: Path, tdir: Path, outs: seq<Output>): (r: Built)
    ensures r.tree.dirs == t.dirs
    ensures r.status.Done? || r.status.TemplateNotFound? || r.status.ReadFailed? || r.status.WriteFailed?
    ensures r.status.WriteFailed? ==> WriteBlocked(t.dirs, r.status.path)
    decreases |outs|
  {
    if outs == [] then Built(t, Done)
    else
      var tpl := TemplatePath(tdir, outs[0]);
      var out := folder + outs[0].rel;
      if tpl !in t.files then Built(t, if tpl in t.dirs then ReadFailed(tpl) else TemplateNotFound(tpl))
      else if WriteBlocked(t.dirs, out) then Built(t, WriteFailed(out))
      else WriteOutputs(WriteFile(t, out, Render(t.files[tpl], outs[0].pairs)), folder, tdir, outs[1..])
  }

  /** The tree `rmtree` leaves when the folder exists. */
  function Cleared(t: Tree, folder: Path): Tree {
    if Exists(t, folder) then RemoveTree(t, folder) else t
  }

  /** `create_engagement_structure`. The yes/no answer to the overwrite
      question is `overwrite`; it only matters when the folder exists. */
  function Build(t: Tree, d: Data, overwrite: bool): Built {
    var folder := EngagementFolder(d);
    if Exists(t, folder) && !overwrite then Built(t, Declined)
    else if Exists(t, folder) && folder !in t.dirs then Built(t, RemoveFailed(folder))
    else
      var made := CreateDirs(Cleared(t, folder), folder, d.phases);
      if made.status != Done then made
      else WriteOutputs(made.tree, folder, d.templates, Outputs(d))
  }

  // ----- what the build promises -----

  /** The number of outputs whose templates are files before the first one
      that is not. */
  function FirstMissing(files: map<Path, string>, tdir: Path, outs: seq<Output>): (n: nat)
    ensures n <= |outs|
    ensures forall k :: 0 <= k < n ==> TemplatePath(tdir, outs[k]) in files
    ensures n < |outs| ==> TemplatePath(tdir, outs[n]) !in files
    decreases |outs|
  {
    if outs == [] || TemplatePath(tdir, outs[0]) !in files then 0
    else 1 + FirstMissing(files, tdir, outs[1..])
  }

  /** The paths of the first `n` outputs inside `folder`. */
  function WrittenPaths(folder: Path, outs: seq<Output>, n: nat): set<Path>
    requires n <= |outs|
  {
    set k | 0 <= k < n :: folder + outs[k].rel
  }

  predicate RelsDistinct(outs: seq<Output>) {
    forall i, j :: 0 <= i < j < |outs| ==> outs[i].rel != outs[j].rel
  }

  /** No template lies inside the engagement folder. */
  predicate TemplatesOutside(tdir: Path, folder: Path, outs: seq<Output>) {
    forall k :: 0 <= k < |outs| ==> !Under(TemplatePath(tdir, outs[k]), folder)
  }

  /** Nothing lies at or below `folder`. */
  predicate Vacant(t: Tree, folder: Path) {
    && (forall q | q in t.dirs :: !Under(q, folder))
    && (forall q | q in t.files :: !Under(q, folder))
  }

  /** The outputs' paths inside `folder` are all free to be written. */
  predicate Writable(dirs: set<Path>, folder: Path, outs: seq<Output>) {
    forall k :: 0 <= k < |outs| ==> !WriteBlocked(dirs, folder + outs[k].rel)
  }

  /** Writing the outputs when no output path is blocked: the build is done
      exactly when every template was there, and otherwise names the first
      template that was not, as unreadable when it is a directory. */
  lemma {:induction false} WriteOutputsStatus(t: Tree, folder: Path, tdir: Path, outs: seq<Output>)
    requires TemplatesOutside(tdir, folder, outs) && Writable(t.dirs, folder, outs)
    ensures var r := WriteOutputs(t, folder, tdir, outs);
      var n := FirstMissing(t.files, tdir, outs);
      && (r.status == Done <==> n == |outs|)
      && (n < |outs| && TemplatePath(tdir, outs[n]) in t.dirs ==> r.status == ReadFailed(TemplatePath(tdir, outs[n])))
      && (n < |outs| && TemplatePath(tdir, outs[n]) !in t.dirs ==> r.status == TemplateNotFound(TemplatePath(tdir, outs[n])))
    decreases |outs|
  {
    if outs != [] && TemplatePath(tdir, outs[0]) in t.files {
      var tpl := TemplatePath(tdir, outs[0]);
      var p0 := folder + outs[0].rel;
      var t1 := WriteFile(t, p0, Render(t.files[tpl], outs[0].pairs));
      var rest := outs[1..];
      assert !WriteBlocked(t.dirs, p0);
      assert WriteOutputs(t, folder, tdir, outs) == WriteOutputs(t1, folder, tdir, rest);
      assert Writable(t1.dirs, folder, rest) by {
        forall k | 0 <= k < |rest| ensures !WriteBlocked(t1.dirs, folder + rest[k].rel) {
          assert rest[k] == outs[k + 1];
        }
      }
      assert TemplatesOutside(tdir, folder, rest) by {
        forall k | 0 <= k < |rest| ensures !Under(TemplatePath(tdir, rest[k]), folder) {
          assert rest[k] == outs[k + 1];
        }
      }
      forall k | 0 <= k < |outs| ensures TemplatePath(tdir, outs[k]) != p0 {
        assert !Under(TemplatePath(tdir, outs[k]), folder);
      }
      WriteOutputsStatus(t1, folder, tdir, rest);
      FirstMissingStep(t, p0, Render(t.files[tpl], outs[0].pairs), tdir, outs);
    }
  }

  /** One write at an output path that is not a template leaves the later
      templates' presence as it was. */
  lemma FirstMissingStep(t: Tree, p: Path, content: string, tdir: Path, outs: seq<Output>)
    requires outs != [] && TemplatePath(tdir, outs[0]) in t.files
    requires forall k :: 0 <= k < |outs| ==> TemplatePath(tdir, outs[k]) != p
    ensures FirstMissing(t.files, tdir, outs) == 1 + FirstMissing(WriteFile(t, p, content).files, tdir, outs[1..])
    ensures var n := FirstMissing(t.files, tdir, outs);
      n < |outs| ==> TemplatePath(tdir, outs[n]) == TemplatePath(tdir, outs[1..][n - 1])
  {
    var t1 := WriteFile(t, p, content);
    FirstMissingAgree(t.files, t1.files, tdir, outs[1..]) by {
      forall k | 0 <= k < |outs[1..]|
        ensures TemplatePath(tdir, outs[1..][k]) in t.files <==> TemplatePath(tdir, outs[1..][k]) in t1.files
      {
        assert outs[1..][k] == outs[k + 1];
      }
    }
  }

  /** Writing the outputs when no output path is blocked and no template
      lies inside `folder`: exactly the first `FirstMissing` output paths
      are added and no other file changes. */
  lemma {:induction false} WriteOutputsFiles(t: Tree, folder: Path, tdir: Path, outs: seq<Output>)
    requires TemplatesOutside(tdir, folder, outs)
    requires Writable(t.dirs, folder, outs)
    ensures var r := WriteOutputs(t, folder, tdir, outs);
      var n := FirstMissing(t.files, tdir, outs);
      && (forall q :: q in r.tree.files <==> q in t.files || q in WrittenPaths(folder, outs, n))
      && (forall q :: q in t.files && q !in WrittenPaths(folder, outs, n) ==> r.tree.files[q] == t.files[q])
      && (Wf(t) ==> Wf(r.tree))
    decreases |outs|
  {
    if outs != [] && TemplatePath(tdir, outs[0]) in t.files {
      var tpl := TemplatePath(tdir, outs[0]);
      var p0 := folder + outs[0].rel;
      var t1 := WriteFile(t, p0, Render(t.files[tpl], outs[0].pairs));
      var rest := outs[1..];
      WriteStep(t, folder, tdir, outs);
      TemplatesUnchangedByWrite(t, p0, Render(t.files[tpl], outs[0].pairs), tdir, folder, rest);
      WriteOutputsFiles(t1, folder, tdir, rest);
      var n := FirstMissing(t.files, tdir, outs);
      assert n == 1 + FirstMissing(t1.files, tdir, rest);
      WrittenPathsShift(folder, outs, n);
    }
  }

  /** The first write of `WriteOutputs` when its template is there: the rest
      of the outputs go to the tree it leaves, and still meet the
      requirements. */
  lemma WriteStep(t: Tree, folder: Path, tdir: Path, outs: seq<Output>)
    requires outs != [] && TemplatePath(tdir, outs[0]) in t.files
    requires TemplatesOutside(tdir, folder, outs) && Writable(t.dirs, folder, outs)
    ensures var t1 := WriteFile(t, folder + outs[0].rel, Render(t.files[TemplatePath(tdir, outs[0])], outs[0].pairs));
      && !WriteBlocked(t.dirs, folder + outs[0].rel)
      && WriteOutputs(t, folder, tdir, outs) == WriteOutputs(t1, folder, tdir, outs[1..])
      && TemplatesOutside(tdir, folder, outs[1..])
      && Writable(t1.dirs, folder, outs[1..])
  {
    var rest := outs[1..];
    forall k | 0 <= k < |rest| ensures rest[k] == outs[k + 1] { }
  }

  /** Writing the outputs under the same requirements, with distinct output
      paths: each of the first `FirstMissing` outputs holds its template
      rendered with its pairs. */
  lemma {:induction false} WriteOutputsContents(t: Tree, folder: Path, tdir: Path, outs: seq<Output>)
    requires RelsDistinct(outs) && TemplatesOutside(tdir, folder, outs)
    requires Writable(t.dirs, folder, outs)
    ensures var r := WriteOutputs(t, folder, tdir, outs);
      forall k :: 0 <= k < FirstMissing(t.files, tdir, outs) ==>
        && folder + outs[k].rel in r.tree.files
        && r.tree.files[folder + outs[k].rel] == Render(t.files[TemplatePath(tdir, outs[k])], outs[k].pairs)
    decreases |outs|
  {
    if outs != [] && TemplatePath(tdir, outs[0]) in t.files {
      var tpl := TemplatePath(tdir, outs[0]);
      var p0 := folder + outs[0].rel;
      var t1 := WriteFile(t, p0, Render(t.files[tpl], outs[0].pairs));
      var rest := outs[1..];
      WriteStep(t, folder, tdir, outs);
      assert RelsDistinct(rest);
      TemplatesUnchangedByWrite(t, p0, Render(t.files[tpl], outs[0].pairs), tdir, folder, rest);
      WriteOutputsContents(t1, folder, tdir, rest);
      WriteOutputsFiles(t1, folder, tdir, rest);
      var n := FirstMissing(t.files, tdir, outs);
      assert n == 1 + FirstMissing(t1.files, tdir, rest);
      var r := WriteOutputs(t, folder, tdir, outs);
      forall k | 0 <= k < n
        ensures folder + outs[k].rel in r.tree.files
        ensures r.tree.files[folder + outs[k].rel] == Render(t.files[TemplatePath(tdir, outs[k])], outs[k].pairs)
      {
        if k == 0 {
          forall j | 0 <= j < n - 1 ensures p0 != folder + rest[j].rel {
            assert rest[j] == outs[j + 1];
            assert p0[|folder|..] == outs[0].rel;
            assert (folder + rest[j].rel)[|folder|..] == rest[j].rel;
          }
        } else {
          assert outs[k] == rest[k - 1];
        }
      }
    }
  }

  lemma WrittenPathsShift(folder: Path, outs: seq<Output>, n: nat)
    requires 0 < n <= |outs|
    ensures WrittenPaths(folder, outs, n) == {folder + outs[0].rel} + WrittenPaths(folder, outs[1..], n - 1)
  {
    var a := WrittenPaths(folder, outs, n);
    var b := {folder + outs[0].rel} + WrittenPaths(folder, outs[1..], n - 1);
    forall q | q in a ensures q in b {
      var k :| 0 <= k < n && q == folder + outs[k].rel;
      if k > 0 {
        assert outs[1..][k - 1] == outs[k];
      }
    }
    forall q | q in b ensures q in a {
      if q != folder + outs[0].rel {
        var k :| 0 <= k < n - 1 && q == folder + outs[1..][k].rel;
        assert outs[1..][k] == outs[k + 1];
      }
    }
  }

  /** A write inside `folder` does not move where the first missing
      template is, nor what the templates hold. */
  lemma TemplatesUnchangedByWrite(t: Tree, p: Path, content: string, tdir: Path, folder: Path, outs: seq<Output>)
    requires Under(p, folder) && TemplatesOutside(tdir, folder, outs)
    ensures FirstMissing(WriteFile(t, p, content).files, tdir, outs) == FirstMissing(t.files, tdir, outs)
    ensures forall k :: 0 <= k < |outs| ==>
      (TemplatePath(tdir, outs[k]) in t.files ==>
         WriteFile(t, p, content).files[TemplatePath(tdir, outs[k])] == t.files[TemplatePath(tdir, outs[k])])
    decreases |outs|
  {
    forall k | 0 <= k < |outs| ensures TemplatePath(tdir, outs[k]) != p {
      assert !Under(TemplatePath(tdir, outs[k]), folder);
    }
    if outs != [] {
      assert TemplatesOutside(tdir, folder, outs[1..]) by {
        forall k | 0 <= k < |outs[1..]| ensures !Under(TemplatePath(tdir, outs[1..][k]), folder) {
          assert outs[1..][k] == outs[k + 1];
        }
      }
      TemplatesUnchangedByWrite(t, p, content, tdir, folder, outs[1..]);
    }
  }

  /** `FirstMissing` depends only on which template paths are files. */
  lemma {:induction false} FirstMissingAgree(a: map<Path, string>, b: map<Path, string>, tdir: Path, outs: seq<Output>)
    requires forall k :: 0 <= k < |outs| ==> (TemplatePath(tdir, outs[k]) in a <==> TemplatePath(tdir, outs[k]) in b)
    ensures FirstMissing(a, tdir, outs) == FirstMissing(b, tdir, outs)
    decreases |outs|
  {
    if outs != [] {
      forall k | 0 <= k < |outs[1..]|
        ensures TemplatePath(tdir, outs[1..][k]) in a <==> TemplatePath(tdir, outs[1..][k]) in b
      {
        assert outs[1..][k] == outs[k + 1];
      }
      FirstMissingAgree(a, b, tdir, outs[1..]);
    }
  }

  // ----- the directory tree -----

  /** The non-empty prefixes of `folder + rel` are those of `folder` and
      those below `folder` whose remainder is a prefix of `rel`. */
  lemma AncestorsOfBelow(folder: Path, rel: Path, q: Path)
    requires folder != []
    ensures (q != [] && Under(folder + rel, q))
        <==> (q != [] && Under(folder, q)) || (Under(q, folder) && Under(rel, q[|folder|..]))
  {
    var p := folder + rel;
    if |q| <= |folder| {
      assert folder[..|q|] == p[..|q|];
    }
    if q != [] && Under(p, q) && !Under(folder, q) {
      assert q[..|folder|] == p[..|q|][..|folder|] == folder;
      assert q[|folder|..] == rel[..|q| - |folder|];
    }
    if Under(q, folder) && Under(rel, q[|folder|..]) {
      assert q == folder + q[|folder|..];
      assert p[..|q|] == folder + rel[..|q| - |folder|];
    }
    if q != [] && Under(folder, q) {
      assert p[..|q|] == folder[..|q|];
    }
  }

  /** One `mkdir` below an empty, unblocked folder succeeds and adds the
      folder's ancestors and the prefixes of `rel` below it. */
  lemma MkdirBelow(b: Built, folder: Path, rel: Path, files: map<Path, string>)
    requires folder != [] && b.status == Done && b.tree.files == files && Wf(b.tree)
    requires !Blocked(files, folder) && (forall q | q in files :: !Under(q, folder))
    ensures var r := Mkdir(b, folder + rel);
      && r.status == Done && r.tree.files == files && Wf(r.tree)
      && (forall q :: q in r.tree.dirs <==>
            q in b.tree.dirs || (q != [] && Under(folder, q)) || (Under(q, folder) && Under(rel, q[|folder|..])))
  {
    var p := folder + rel;
    forall i | 0 < i <= |p| ensures p[..i] !in files {
      if i <= |folder| {
        assert p[..i] == folder[..i];
      } else {
        assert p[..i][..|folder|] == folder;
      }
    }
    forall q ensures q in Mkdir(b, p).tree.dirs <==>
      q in b.tree.dirs || (q != [] && Under(folder, q)) || (Under(q, folder) && Under(rel, q[|folder|..]))
    {
      AncestorsOfBelow(folder, rel, q);
    }
  }

  lemma PrefixesOfOne(a: string, x: Path)
    ensures Under([a], x) <==> x == [] || x == [a]
  {
  }

  lemma PrefixesOfTwo(a: string, b: string, x: Path)
    ensures Under([a, b], x) <==> x == [] || x == [a] || x == [a, b]
  {
    if |x| == 1 && Under([a, b], x) {
      assert x == [a, b][..1];
    }
  }

  /** `x` is a prefix of one of `rels`. */
  predicate PrefixOfSome(rels: seq<Path>, x: Path)
    decreases |rels|
  {
    rels != [] && (Under(rels[0], x) || PrefixOfSome(rels[1..], x))
  }

  lemma {:induction false} PrefixOfSomeAppend(a: seq<Path>, b: seq<Path>, x: Path)
    ensures PrefixOfSome(a + b, x) <==> PrefixOfSome(a, x) || PrefixOfSome(b, x)
    decreases |a|
  {
    if a == [] {
      assert a + b == b;
    } else {
      assert (a + b)[1..] == a[1..] + b;
      PrefixOfSomeAppend(a[1..], b, x);
    }
  }

  /** The set of structure directories is exactly the prefixes of the
      directories the `mkdir` calls name. */
  lemma StructureDirsArePrefixes(c: PhaseChoice, x: Path)
    ensures x in StructureDirs(c) <==> PrefixOfSome(StructureRels(c), x)
  {
    var e, i, w := PhaseDir(External), PhaseDir(Internal), PhaseDir(WebApp);
    var base: seq<Path> := [[], [AttachmentsDir], [FindingsDir]];
    var re: seq<Path> := if c.external then [[e, AttachmentsDir]] else [];
    var ri: seq<Path> := if c.internal then [[i, AttachmentsDir]] else [];
    var rw: seq<Path> := if c.webapp then [[w, AttachmentsDir]] else [];
    assert StructureRels(c) == base + re + ri + rw;
    PrefixOfSomeAppend(base + re + ri, rw, x);
    PrefixOfSomeAppend(base + re, ri, x);
    PrefixOfSomeAppend(base, re, x);
    PrefixesOfOne(AttachmentsDir, x);
    PrefixesOfOne(FindingsDir, x);
    assert PrefixOfSome(base, x) <==> x == [] || Under([AttachmentsDir], x) || Under([FindingsDir], x) by {
      assert base[1..] == [[AttachmentsDir], [FindingsDir]];
      assert base[1..][1..] == [[FindingsDir]];
      assert base[1..][1..][1..] == [];
      assert Under([], x) <==> x == [];
      assert PrefixOfSome(base, x) == (Under([], x) || PrefixOfSome(base[1..], x));
      assert PrefixOfSome(base[1..], x) == (Under([AttachmentsDir], x) || PrefixOfSome(base[1..][1..], x));
      assert PrefixOfSome(base[1..][1..], x) == (Under([FindingsDir], x) || PrefixOfSome([], x));
    }
    PrefixesOfTwo(e, AttachmentsDir, x);
    PrefixesOfTwo(i, AttachmentsDir, x);
    PrefixesOfTwo(w, AttachmentsDir, x);
    assert c.external ==> re[1..] == [];
    assert c.internal ==> ri[1..] == [];
    assert c.webapp ==> rw[1..] == [];
  }

  /** A run of `mkdir`s below an empty, unblocked folder: each succeeds, and
      they add the folder's ancestors and the prefixes of `rels` below it. */
  lemma {:induction false} MkdirAllBelow(b: Built, folder: Path, rels: seq<Path>, files: map<Path, string>)
    requires folder != [] && rels != [] && b.status == Done && b.tree.files == files && Wf(b.tree)
    requires !Blocked(files, folder) && (forall q | q in files :: !Under(q, folder))
    ensures var r := MkdirAll(b, folder, rels);
      && r.status == Done && r.tree.files == files && Wf(r.tree)
      && (forall q :: q in r.tree.dirs <==>
            q in b.tree.dirs || (q != [] && Under(folder, q)) || (Under(q, folder) && PrefixOfSome(rels, q[|folder|..])))
    decreases |rels|
  {
    MkdirBelow(b, folder, rels[0], files);
    var b1 := Mkdir(b, folder + rels[0]);
    if rels[1..] != [] {
      MkdirAllBelow(b1, folder, rels[1..], files);
    }
  }

  /** Creating the structure in an empty, unblocked folder: every `mkdir`
      succeeds, and the directories are afterwards exactly those there
      before, the folder's ancestors, and the structure below it. */
  lemma CreateDirsSpec(t: Tree, folder: Path, c: PhaseChoice)
    requires folder != [] && Wf(t) && !Blocked(t.files, folder) && Vacant(t, folder)
    ensures var r := CreateDirs(t, folder, c);
      && r.status == Done && r.tree.files == t.files && Wf(r.tree)
      && (forall q :: q in r.tree.dirs <==>
            if Under(q, folder) then q[|folder|..] in StructureDirs(c)
            else q in t.dirs || (q != [] && Under(folder, q)))
  {
    MkdirAllBelow(Built(t, Done), folder, StructureRels(c), t.files);
    var r := CreateDirs(t, folder, c);
    forall q ensures q in r.tree.dirs <==>
      if Under(q, folder) then q[|folder|..] in StructureDirs(c)
      else q in t.dirs || (q != [] && Under(folder, q))
    {
      if Under(q, folder) {
        StructureDirsArePrefixes(c, q[|folder|..]);
        assert q !in t.dirs;
        if Under(folder, q) {
          assert q[|folder|..] == [];
          assert Under(StructureRels(c)[0], []);
        }
      }
    }
  }

  /** `rmtree` on an existing folder, or nothing when there is none: the
      folder is empty afterwards, nothing outside it changes, and whether
      `mkdir` will be blocked is as before. */
  lemma ClearedSpec(t: Tree, folder: Path)
    requires folder != [] && Wf(t) && (!Exists(t, folder) || folder in t.dirs)
    ensures var c := Cleared(t, folder);
      && Wf(c) && Vacant(c, folder)
      && (forall q :: !Under(q, folder) ==> (q in c.dirs <==> q in t.dirs))
      && (forall q :: !Under(q, folder) ==> (q in c.files <==> q in t.files))
      && (forall q | q in c.files :: q in t.files && c.files[q] == t.files[q])
      && (Blocked(c.files, folder) <==> Blocked(t.files, folder))
  {
    if Exists(t, folder) {
      forall i | 0 < i <= |folder| ensures folder[..i] !in t.files {
        if i < |folder| {
          assert folder[..i] in t.dirs;
        } else {
          assert folder[..i] == folder;
        }
      }
    } else {
      forall q | q in t.dirs ensures !Under(q, folder) {
        assert q[..|q|] == q;
        if |q| > |folder| {
          assert q[..|folder|] in t.dirs;
        }
      }
      forall q | q in t.files ensures !Under(q, folder) {
        assert q[..|q|] == q;
        if |q| > |folder| {
          assert q[..|folder|] in t.dirs;
        }
      }
    }
  }

  // ----- the build -----

  /** The build goes past the overwrite question and `rmtree`: the folder is
      new, or it is a directory the user agreed to overwrite. */
  predicate Proceeds(t: Tree, folder: Path, overwrite: bool) {
    !Exists(t, folder) || (overwrite && folder in t.dirs)
  }

  /** No template lies inside the engagement folder or on the way to it. */
  predicate TemplatesApart(tdir: Path, folder: Path, outs: seq<Output>) {
    forall k :: 0 <= k < |outs| ==>
      !Under(TemplatePath(tdir, outs[k]), folder) && !Under(folder, TemplatePath(tdir, outs[k]))
  }

  /** Where each output goes: the overview into the folder, the `k`-th chosen
      phase's file into that phase's folder. */
  lemma OutputRel(d: Data, k: nat)
    requires k < |Outputs(d)|
    ensures |Outputs(d)| == 1 + |Chosen(d.phases)|
    ensures k == 0 ==> Outputs(d)[k].rel == [OverviewFile]
    ensures k > 0 ==> Outputs(d)[k].rel == [PhaseDir(Chosen(d.phases)[k - 1]), PhaseFile(d.name, Chosen(d.phases)[k - 1])]
  {
    if k > 0 {
      var ps := Chosen(d.phases);
      assert Outputs(d)[k] == PhaseOutput(d, ps[k - 1]);
    }
  }

  lemma OutputAt(d: Data, k: nat)
    requires 0 < k < |Outputs(d)|
    ensures Outputs(d)[k] == PhaseOutput(d, Chosen(d.phases)[k - 1])
  {
  }

  /** The plan of outputs: the overview first, then a phase file, from the
      phase's template and with the phase's pairs, exactly for each chosen
      phase, one per chosen phase. */
  lemma OutputsPlan(d: Data, p: Phase)
    ensures |Outputs(d)| == 1 + |Chosen(d.phases)|
    ensures Outputs(d)[0] == Output([OverviewFile], OverviewTemplate, OverviewReplacements(d))
    ensures IsChosen(d.phases, p) <==> PhaseOutput(d, p) in Outputs(d)[1..]
  {
    if IsChosen(d.phases, p) {
      ChosenPhaseHasOutput(d, p);
    } else {
      UnchosenPhaseHasNone(d, p);
    }
  }

  lemma ChosenPhaseHasOutput(d: Data, p: Phase)
    requires IsChosen(d.phases, p)
    ensures PhaseOutput(d, p) in Outputs(d)[1..]
  {
    var ps := Chosen(d.phases);
    var i :| 0 <= i < |ps| && ps[i] == p;
    OutputAt(d, i + 1);
    assert Outputs(d)[1..][i] == Outputs(d)[i + 1];
  }

  lemma UnchosenPhaseHasNone(d: Data, p: Phase)
    requires !IsChosen(d.phases, p)
    ensures PhaseOutput(d, p) !in Outputs(d)[1..]
  {
    var ps := Chosen(d.phases);
    var outs := Outputs(d);
    forall i | 0 <= i < |outs[1..]| ensures outs[1..][i].rel != PhaseOutput(d, p).rel {
      assert outs[1..][i] == outs[i + 1];
      OutputRel(d, i + 1);
      assert ps[i] in ps;
      assert ps[i] != p;
    }
  }

  /** Every output has its own path: the overview sits in the folder, each
      phase file in its own phase folder. */
  lemma OutputsDistinct(d: Data)
    ensures RelsDistinct(Outputs(d))
  {
    var outs := Outputs(d);
    var ps := Chosen(d.phases);
    ChosenDistinct(d.phases);
    forall i, j | 0 <= i < j < |outs| ensures outs[i].rel != outs[j].rel {
      OutputRel(d, i);
      OutputRel(d, j);
      if i > 0 {
        assert ps[i - 1] != ps[j - 1];
        assert outs[i].rel[0] != outs[j].rel[0];
      }
    }
  }

  /** A phase file is never named `_Attachments`: it ends in ".md". */
  lemma PhaseFileIsNotAttachments(name: string, p: Phase)
    ensures PhaseFile(name, p) != AttachmentsDir
  {
    var f := PhaseFile(name, p);
    assert f[|f| - 1] == 'd';
  }

  /** Which output-related paths the structure holds: the folder itself and
      a chosen phase's folder, but no output file. */
  lemma StructureDirsFacts(c: PhaseChoice, p: Phase, f: string)
    requires f != AttachmentsDir
    ensures [] in StructureDirs(c)
    ensures [OverviewFile] !in StructureDirs(c)
    ensures IsChosen(c, p) ==> [PhaseDir(p)] in StructureDirs(c)
    ensures [PhaseDir(p), f] !in StructureDirs(c)
  {
  }

  /** The directories below `folder` are exactly the structure. */
  ghost predicate StructureBelow(dirs: set<Path>, folder: Path, c: PhaseChoice) {
    forall q :: Under(q, folder) ==> (q in dirs <==> q[|folder|..] in StructureDirs(c))
  }

  /** `folder + rel` is free when `rel` is not in the structure and
      `rel`'s parent is. */
  lemma RelWritable(dirs: set<Path>, folder: Path, c: PhaseChoice, rel: Path)
    requires folder != [] && rel != [] && StructureBelow(dirs, folder, c)
    requires rel !in StructureDirs(c) && rel[..|rel| - 1] in StructureDirs(c)
    ensures !WriteBlocked(dirs, folder + rel)
  {
    var p := folder + rel;
    assert p[..|folder|] == folder;
    assert p[|folder|..] == rel;
    var parent := p[..|p| - 1];
    assert parent[..|folder|] == folder;
    assert parent[|folder|..] == rel[..|rel| - 1];
  }

  /** Once the structure stands, every output path is free: it is not a
      directory and its parent is. */
  lemma OutputsWritable(dirs: set<Path>, folder: Path, d: Data)
    requires folder != [] && StructureBelow(dirs, folder, d.phases)
    ensures Writable(dirs, folder, Outputs(d))
  {
    forall k | 0 <= k < |Outputs(d)| ensures !WriteBlocked(dirs, folder + Outputs(d)[k].rel) {
      OutputWritable(dirs, folder, d, k);
    }
  }

  lemma OutputWritable(dirs: set<Path>, folder: Path, d: Data, k: nat)
    requires folder != [] && StructureBelow(dirs, folder, d.phases) && k < |Outputs(d)|
    ensures !WriteBlocked(dirs, folder + Outputs(d)[k].rel)
  {
    OutputRel(d, k);
    if k > 0 {
      var ph := Chosen(d.phases)[k - 1];
      assert ph in Chosen(d.phases);
      var f := PhaseFile(d.name, ph);
      PhaseFileIsNotAttachments(d.name, ph);
      StructureDirsFacts(d.phases, ph, f);
      assert [PhaseDir(ph), f][..1] == [PhaseDir(ph)];
      RelWritable(dirs, folder, d.phases, [PhaseDir(ph), f]);
    } else {
      StructureDirsFacts(d.phases, External, OverviewFile);
      assert [OverviewFile][..0] == [];
      RelWritable(dirs, folder, d.phases, [OverviewFile]);
    }
  }

  /** The overwrite guard and `rmtree`: the build is declined exactly when
      the folder exists and the answer is no, `rmtree` raises exactly when
      the folder exists as something other than a directory and the answer
      is yes, and in both cases the tree is left as it was. */
  lemma BuildGuards(t: Tree, d: Data, overwrite: bool)
    ensures var r := Build(t, d, overwrite);
      var folder := EngagementFolder(d);
      && (r.status == Declined <==> Exists(t, folder) && !overwrite)
      && (r.status.RemoveFailed? <==> Exists(t, folder) && overwrite && folder !in t.dirs)
      && (r.status == Declined || r.status.RemoveFailed? ==> r.tree == t)
  {
  }

  /** `mkdir` raises exactly when the build proceeds and the folder or one
      of its ancestors is a file; nothing has been changed by then. */
  lemma BuildMkdirFails(t: Tree, d: Data, overwrite: bool)
    requires Wf(t)
    ensures var r := Build(t, d, overwrite);
      var folder := EngagementFolder(d);
      && (r.status.MkdirFailed? <==> Proceeds(t, folder, overwrite) && Blocked(t.files, folder))
      && (r.status.MkdirFailed? ==> r.status == MkdirFailed(folder) && r.tree == t)
  {
    var folder := EngagementFolder(d);
    if Proceeds(t, folder, overwrite) {
      ClearedSpec(t, folder);
      var cleared := Cleared(t, folder);
      if Blocked(t.files, folder) {
        assert !Exists(t, folder);
        var b1 := Mkdir(Built(cleared, Done), folder + []);
        assert folder + [] == folder;
        assert b1 == Built(t, MkdirFailed(folder));
      } else {
        CreateDirsSpec(cleared, folder, d.phases);
      }
    }
  }

  /** The tree once the structure stands, before any file is written. */
  function Made(t: Tree, d: Data): Built {
    CreateDirs(Cleared(t, EngagementFolder(d)), EngagementFolder(d), d.phases)
  }

  /** A build that gets past the guard: `rmtree` and every `mkdir` succeed,
      the directories inside the folder are exactly the structure, the
      folder's ancestors are added, the folder holds no file yet, and the
      files outside it are as they were. */
  lemma MadeSpec(t: Tree, d: Data, overwrite: bool)
    requires Wf(t)
    requires Proceeds(t, EngagementFolder(d), overwrite) && !Blocked(t.files, EngagementFolder(d))
    ensures var m := Made(t, d);
      var folder := EngagementFolder(d);
      && m.status == Done && Wf(m.tree)
      && Build(t, d, overwrite) == WriteOutputs(m.tree, folder, d.templates, Outputs(d))
      && (forall q :: q in m.tree.dirs <==>
            if Under(q, folder) then q[|folder|..] in StructureDirs(d.phases)
            else q in t.dirs || (q != [] && Under(folder, q)))
      && (forall q | q in m.tree.files :: !Under(q, folder))
      && (forall q :: !Under(q, folder) ==> (q in m.tree.files <==> q in t.files))
      && (forall q | q in m.tree.files :: q in t.files && m.tree.files[q] == t.files[q])
  {
    var folder := EngagementFolder(d);
    ClearedSpec(t, folder);
    CreateDirsSpec(Cleared(t, folder), folder, d.phases);
  }

  /** How a build that gets past the guard and `mkdir` ends: done exactly
      when every template is a file, and otherwise naming the first that is
      not, as unreadable when it is a directory. */
  lemma BuildStatus(t: Tree, d: Data, overwrite: bool)
    requires Wf(t)
    requires Proceeds(t, EngagementFolder(d), overwrite) && !Blocked(t.files, EngagementFolder(d))
    requires TemplatesApart(d.templates, EngagementFolder(d), Outputs(d))
    ensures var r := Build(t, d, overwrite);
      var outs := Outputs(d);
      var n := FirstMissing(t.files, d.templates, outs);
      && (r.status == Done <==> n == |outs|)
      && (n < |outs| ==> r.status == (if TemplatePath(d.templates, outs[n]) in t.dirs
                                       then ReadFailed(TemplatePath(d.templates, outs[n]))
                                       else TemplateNotFound(TemplatePath(d.templates, outs[n]))))
  {
    var folder := EngagementFolder(d);
    var outs := Outputs(d);
    MadeSpec(t, d, overwrite);
    var m := Made(t, d);
    OutputsWritable(m.tree.dirs, folder, d);
    assert TemplatesOutside(d.templates, folder, outs);
    FirstMissingAgree(m.tree.files, t.files, d.templates, outs);
    WriteOutputsStatus(m.tree, folder, d.templates, outs);
  }

  /** A build past the guards whose `mkdir` calls succeed: the tree stays
      well formed; the directories are the structure inside the folder plus
      the folder's ancestors and what was there outside it; inside the
      folder there are exactly the outputs before the first missing
      template; nothing outside the folder changes. */
  lemma BuildWrites(t: Tree, d: Data, overwrite: bool)
    requires Wf(t)
    requires Proceeds(t, EngagementFolder(d), overwrite) && !Blocked(t.files, EngagementFolder(d))
    requires TemplatesApart(d.templates, EngagementFolder(d), Outputs(d))
    ensures var r := Build(t, d, overwrite);
      var folder := EngagementFolder(d);
      var n := FirstMissing(t.files, d.templates, Outputs(d));
      && Wf(r.tree)
      && (forall q :: q in r.tree.dirs <==>
            if Under(q, folder) then q[|folder|..] in StructureDirs(d.phases)
            else q in t.dirs || (q != [] && Under(folder, q)))
      && (forall q :: Under(q, folder) ==> (q in r.tree.files <==> q in WrittenPaths(folder, Outputs(d), n)))
      && (forall q :: !Under(q, folder) ==> (q in r.tree.files <==> q in t.files))
      && (forall q :: !Under(q, folder) && q in t.files ==> r.tree.files[q] == t.files[q])
  {
    var folder := EngagementFolder(d);
    var outs := Outputs(d);
    MadeSpec(t, d, overwrite);
    var m := Made(t, d);
    OutputsWritable(m.tree.dirs, folder, d);
    assert TemplatesOutside(d.templates, folder, outs);
    FirstMissingAgree(m.tree.files, t.files, d.templates, outs);
    WriteOutputsFiles(m.tree, folder, d.templates, outs);
    var n := FirstMissing(t.files, d.templates, outs);
    forall q | q in WrittenPaths(folder, outs, n) ensures Under(q, folder) {
      var k :| 0 <= k < n && q == folder + outs[k].rel;
      assert q[..|folder|] == folder;
    }
  }

  /** Under the same requirements, each output before the first missing
      template holds its template rendered with its pairs. */
  lemma BuildContents(t: Tree, d: Data, overwrite: bool)
    requires Wf(t)
    requires Proceeds(t, EngagementFolder(d), overwrite) && !Blocked(t.files, EngagementFolder(d))
    requires TemplatesApart(d.templates, EngagementFolder(d), Outputs(d))
    ensures var r := Build(t, d, overwrite);
      var folder := EngagementFolder(d);
      var outs := Outputs(d);
      forall k :: 0 <= k < FirstMissing(t.files, d.templates, outs) ==>
        && folder + outs[k].rel in r.tree.files
        && r.tree.files[folder + outs[k].rel] == Render(t.files[TemplatePath(d.templates, outs[k])], outs[k].pairs)
  {
    var folder := EngagementFolder(d);
    var outs := Outputs(d);
    MadeSpec(t, d, overwrite);
    var m := Made(t, d);
    OutputsDistinct(d);
    OutputsWritable(m.tree.dirs, folder, d);
    assert TemplatesOutside(d.templates, folder, outs);
    FirstMissingAgree(m.tree.files, t.files, d.templates, outs);
    WriteOutputsContents(m.tree, folder, d.templates, outs);
  }
}

=== FILE: substitution.dfy ===
/** Python's `str.replace(old, new)`: a single left-to-right scan that replaces
    every non-overlapping occurrence of `old` and never rescans the text it
    has just inserted. */
module Substitution {

  /** `key in text`: `key` occurs in `text` as a contiguous piece. */
  predicate Contains(text: string, key: string)
    decreases |text|
  {
    |key| <= |text| && (text[..|key|] == key || (|text| > 0 && Contains(text[1..], key)))
  }

  /** No character of `value` is a character of `key`. */
  predicate Foreign(value: string, key: string) {
    forall i :: 0 <= i < |value| ==> value[i] !in key
  }

  /** `text.count(key)`: the number of occurrences found by the same
      left-to-right, non-overlapping scan; an empty key is found before every
      character and at the end. */
  function Count(text: string, key: string): nat
    decreases |text|
  {
    if key == [] then |text| + 1
    else if |text| < |key| then 0
    else if text[..|key|] == key then 1 + Count(text[|key|..], key)
    else Count(text[1..], key)
  }

  /** An empty key matches before every character and at the end, so
      `text.replace("", value)` puts `value` around every character. */
  function Interleave(text: string, value: string): (r: string)
    ensures |r| == |text| + (|text| + 1) * |value|
  {
    if text == [] then value else value + [text[0]] + Interleave(text[1..], value)
  }

  /** `text.replace(key, value)`. */
  function Replace(text: string, key: string, value: string): string
    decreases |text|
  {
    if key == [] then Interleave(text, value)
    else if |text| < |key| then text
    else if text[..|key|] == key then value + Replace(text[|key|..], key, value)
    else [text[0]] + Replace(text[1..], key, value)
  }

  /** The text grows by `|value| - |key|` for each occurrence that
      `text.count(key)` reports. */
  lemma {:induction false} ReplaceLength(text: string, key: string, value: string)
    ensures |Replace(text, key, value)| == |text| + Count(text, key) * (|value| - |key|)
    decreases |text|
  {
    if key == [] {
    } else if |text| < |key| {
    } else if text[..|key|] == key {
      ReplaceLength(text[|key|..], key, value);
      MultiplyOneMore(Count(text[|key|..], key), |value| - |key|);
    } else {
      ReplaceLength(text[1..], key, value);
    }
  }

  /** A key that does not occur is silently skipped: the text comes back
      unchanged. */
  lemma {:induction false} ReplaceAbsent(text: string, key: string, value: string)
    requires !Contains(text, key)
    ensures Replace(text, key, value) == text
    decreases |text|
  {
    if |text| >= |key| {
      ReplaceAbsent(text[1..], key, value);
    }
  }

  lemma MultiplyOneMore(c: int, d: int)
    ensures (1 + c) * d == d + c * d
  {
  }

  /** Replacing a key by itself is the identity: splitting at the occurrences
      and joining again restores the text. */
  lemma {:induction false} ReplaceBySelf(text: string, key: string)
    ensures Replace(text, key, key) == text
    decreases |text|
  {
    if key == [] {
      InterleaveEmpty(text);
    } else if |text| < |key| {
    } else if text[..|key|] == key {
      ReplaceBySelf(text[|key|..], key);
      assert text == text[..|key|] + text[|key|..];
    } else {
      ReplaceBySelf(text[1..], key);
      assert text == [text[0]] + text[1..];
    }
  }

  lemma {:induction false} InterleaveEmpty(text: string)
    ensures Interleave(text, []) == text
  {
    if text != [] {
      InterleaveEmpty(text[1..]);
      assert text == [text[0]] + text[1..];
    }
  }

  /** A text that starts with a character foreign to `key` contains `key`
      only in what follows that prefix. */
  lemma {:induction false} ContainsAfterForeign(prefix: string, rest: string, key: string)
    requires key != [] && Foreign(prefix, key)
    requires Contains(prefix + rest, key)
    ensures Contains(rest, key)
    decreases |prefix|
  {
    if prefix != [] {
      var t := prefix + rest;
      assert t[..|key|] != key by {
        assert t[0] == prefix[0] && prefix[0] !in key;
      }
      assert t[1..] == prefix[1..] + rest;
      ContainsAfterForeign(prefix[1..], rest, key);
    } else {
      assert prefix + rest == rest;
    }
  }

  /** Whatever the result of `Replace` holds in its first `n` places is either
      the first `n` characters of the original text, or includes a character
      of the inserted value. When the value is foreign to `other`, the second
      case means that `other` cannot start at position 0. */
  lemma {:induction false} PrefixCopiedOrForeign(text: string, key: string, value: string, other: string, n: nat)
    requires key != [] && value != [] && Foreign(value, other)
    requires n <= |Replace(text, key, value)|
    ensures var r := Replace(text, key, value);
      (n <= |text| && r[..n] == text[..n]) ||
      (exists i :: 0 <= i < n && r[i] !in other)
    decreases |text|
  {
    var r := Replace(text, key, value);
    if |text| < |key| || n == 0 {
    } else if text[..|key|] == key {
      assert r[0] == value[0];
    } else {
      var r' := Replace(text[1..], key, value);
      assert r == [text[0]] + r';
      PrefixCopiedOrForeign(text[1..], key, value, other, n - 1);
      if n - 1 <= |text[1..]| && r'[..n - 1] == text[1..][..n - 1] {
        assert r[..n] == [text[0]] + r'[..n - 1];
        assert text[..n] == [text[0]] + text[1..][..n - 1];
      } else {
        var i :| 0 <= i < n - 1 && r'[i] !in other;
        assert r[i + 1] == r'[i];
      }
    }
  }

  /** Replacing a key by a non-empty value that shares no character with the
      key leaves no occurrence of the key behind. */
  lemma {:induction false} ReplaceEliminates(text: string, key: string, value: string)
    requires key != [] && value != [] && Foreign(value, key)
    ensures !Contains(Replace(text, key, value), key)
    decreases |text|
  {
    var r := Replace(text, key, value);
    if |text| < |key| {
    } else if text[..|key|] == key {
      ReplaceEliminates(text[|key|..], key, value);
      if Contains(r, key) {
        ContainsAfterForeign(value, Replace(text[|key|..], key, value), key);
      }
    } else {
      ReplaceEliminates(text[1..], key, value);
      if |r| >= |key| && r[..|key|] == key {
        PrefixCopiedOrForeign(text, key, value, key, |key|);
      }
    }
  }

  /** `key in a` implies `key in a + b`. */
  lemma {:induction false} ContainsExtend(a: string, b: string, key: string)
    requires Contains(a, key)
    ensures Contains(a + b, key)
    decreases |a|
  {
    if a[..|key|] != key {
      assert (a + b)[1..] == a[1..] + b;
      ContainsExtend(a[1..], b, key);
    } else {
      assert (a + b)[..|key|] == a[..|key|];
    }
  }

  /** Occurrence is transitive: a text holding `outer` holds every piece of
      `outer`. */
  lemma {:induction false} ContainsTransitive(text: string, outer: string, inner: string)
    requires Contains(text, outer) && Contains(outer, inner)
    ensures Contains(text, inner)
    decreases |text|
  {
    if text[..|outer|] == outer {
      assert text == outer + text[|outer|..];
      ContainsExtend(outer, text[|outer|..], inner);
    } else {
      ContainsTransitive(text[1..], outer, inner);
    }
  }

  /** A key written inside another key: `left + inner + right` holds `inner`. */
  lemma {:induction false} ContainsInfix(left: string, inner: string, right: string)
    ensures Contains(left + inner + right, inner)
    decreases |left|
  {
    var t := left + inner + right;
    if left == [] {
      assert t[..|inner|] == inner;
    } else {
      assert t[1..] == left[1..] + inner + right;
      ContainsInfix(left[1..], inner, right);
    }
  }

  /** A key holding a character the text lacks cannot occur in the text. */
  lemma {:induction false} MissingCharRulesOut(text: string, key: string, c: char)
    requires c in key && c !in text
    ensures !Contains(text, key)
    decreases |text|
  {
    if |key| <= |text| {
      if |text| > 0 {
        MissingCharRulesOut(text[1..], key, c);
      }
    }
  }

  /** Once `inner` is gone from the text, a longer key that contains `inner`
      cannot match either, so its replacement never fires. */
  lemma DeadKey(text: string, inner: string, outer: string, value: string)
    requires Contains(outer, inner) && !Contains(text, inner)
    ensures Replace(text, outer, value) == text
  {
    if Contains(text, outer) {
      ContainsTransitive(text, outer, inner);
    }
    ReplaceAbsent(text, outer, value);
  }

  /** With a non-empty value foreign to the key, a second pass of the same
      replacement changes nothing. */
  lemma ReplaceIdempotent(text: string, key: string, value: string)
    requires key != [] && value != [] && Foreign(value, key)
    ensures Replace(Replace(text, key, value), key, value) == Replace(text, key, value)
  {
    ReplaceEliminates(text, key, value);
    ReplaceAbsent(Replace(text, key, value), key, value);
  }

  /** A non-empty value foreign to `other` cannot create an occurrence of
      `other` that the text did not already hold. */
  lemma {:induction false} ReplaceKeepsAbsent(text: string, key: string, value: string, other: string)
    requires key != [] && other != [] && value != [] && Foreign(value, other)
    requires !Contains(text, other)
    ensures !Contains(Replace(text, key, value), other)
    decreases |text|
  {
    var r := Replace(text, key, value);
    if |text| < |key| {
    } else if text[..|key|] == key {
      var rest := text[|key|..];
      assert !Contains(rest, other) by {
        if Contains(rest, other) {
          assert text == text[..|key|] + rest;
          ContainsSuffix(text[..|key|], rest, other);
        }
      }
      ReplaceKeepsAbsent(rest, key, value, other);
      if Contains(r, other) {
        ContainsAfterForeign(value, Replace(rest, key, value), other);
      }
    } else {
      assert !Contains(text[1..], other);
      ReplaceKeepsAbsent(text[1..], key, value, other);
      if |r| >= |other| && r[..|other|] == other {
        PrefixCopiedOrForeign(text, key, value, other, |other|);
      }
    }
  }

  /** `key in b` implies `key in a + b`. */
  lemma {:induction false} ContainsSuffix(a: string, b: string, key: string)
    requires Contains(b, key)
    ensures Contains(a + b, key)
    decreases |a|
  {
    if a != [] {
      ContainsSuffix(a[1..], b, key);
      assert (a + b)[1..] == a[1..] + b;
    } else {
      assert a + b == b;
    }
  }

  /** Replacing in `a + rest` when no occurrence can start inside `a` (the
      key's first character is not in `a`) leaves `a` in place. */
  lemma {:induction false} ReplaceSkipsPrefix(a: string, rest: string, key: string, value: string)
    requires key != [] && key[0] !in a
    ensures Replace(a + rest, key, value) == a + Replace(rest, key, value)
    decreases |a|
  {
    if a != [] {
      var t := a + rest;
      if |t| >= |key| {
        assert t[..|key|] != key by { assert t[0] == a[0]; }
      }
      assert t[1..] == a[1..] + rest;
      ReplaceSkipsPrefix(a[1..], rest, key, value);
    } else {
      assert a + rest == rest;
    }
  }

  /** Replacing one character by another maps the text character by
      character. */
  lemma {:induction false} ReplaceCharPointwise(text: string, a: char, b: char)
    ensures var r := Replace(text, [a], [b]);
      |r| == |text| && forall i :: 0 <= i < |text| ==> r[i] == (if text[i] == a then b else text[i])
    decreases |text|
  {
    if |text| > 0 {
      ReplaceCharPointwise(text[1..], a, b);
      var r := Replace(text, [a], [b]);
      var tail := Replace(text[1..], [a], [b]);
      assert text[..1] == [a] <==> text[0] == a;
      assert r == [if text[0] == a then b else text[0]] + tail;
      forall i | 0 < i < |text| ensures r[i] == (if text[i] == a then b else text[i]) {
        assert r[i] == tail[i - 1];
        assert text[1..][i - 1] == text[i];
      }
    }
  }

  /** `key` sits in `text` at position `i`. */
  predicate OccursAt(text: string, key: string, i: int) {
    0 <= i <= |text| - |key| && text[i..i + |key|] == key
  }

  /** `Contains` is `key in text`: `key` sits in `text` at some position. */
  lemma {:induction false} ContainsAtSomePosition(text: string, key: string)
    ensures Contains(text, key) <==> exists i :: OccursAt(text, key, i)
    decreases |text|
  {
    if |key| <= |text| && |text| > 0 {
      ContainsAtSomePosition(text[1..], key);
      if text[..|key|] == key {
        assert OccursAt(text, key, 0);
      } else if Contains(text, key) {
        var i :| OccursAt(text[1..], key, i);
        OccursAtShift(text, key, i + 1);
      } else {
        forall i | 0 <= i <= |text| - |key| ensures !OccursAt(text, key, i) {
          if i == 0 {
            assert text[..|key|] == text[0..0 + |key|];
          } else {
            OccursAtShift(text, key, i);
          }
        }
      }
    } else if |key| <= |text| {
      assert OccursAt(text, key, 0);
    }
  }

  /** An occurrence past the first character is an occurrence in the tail. */
  lemma OccursAtShift(text: string, key: string, i: int)
    requires 0 < i && |text| > 0
    ensures OccursAt(text, key, i) <==> OccursAt(text[1..], key, i - 1)
  {
    if i <= |text| - |key| {
      assert text[i..i + |key|] == text[1..][i - 1..i - 1 + |key|];
    }
  }
}

=== FILE: templates.dfy ===
/** Rendering a template: an ordered list of (placeholder, value) pairs is
    applied to the text one pair after another, each pair by a full
    `str.replace` pass over the text the previous pairs left behind. */
module Templates {
  import opened Substitution

  /** Insertion-ordered placeholder/value pairs (a Python dict literal). */
  type Replacements = seq<(string, string)>

  function Render(content: string, pairs: Replacements): string
    decreases |pairs|
  {
    if pairs == [] then content
    else Render(Replace(content, pairs[0].0, pairs[0].1), pairs[1..])
  }

  /** Rendering with `a` then `b` is rendering with `a` and then rendering the
      result with `b`. */
  lemma {:induction false} RenderAppend(content: string, a: Replacements, b: Replacements)
    ensures Render(content, a + b) == Render(Render(content, a), b)
    decreases |a|
  {
    if a == [] {
      assert a + b == b;
    } else {
      assert (a + b)[1..] == a[1..] + b;
      RenderAppend(Replace(content, a[0].0, a[0].1), a[1..], b);
    }
  }

  /** Placeholders that do not occur are skipped silently: a text holding
      none of the keys is returned unchanged. */
  lemma {:induction false} RenderSkipsAbsent(content: string, pairs: Replacements)
    requires forall i :: 0 <= i < |pairs| ==> !Contains(content, pairs[i].0)
    ensures Render(content, pairs) == content
    decreases |pairs|
  {
    if pairs != [] {
      ReplaceAbsent(content, pairs[0].0, pairs[0].1);
      RenderSkipsAbsent(content, pairs[1..]);
    }
  }

  /** The pair at position `j` never fires when its key contains `inner` and
      `inner` is gone from the text that the first `j` pairs leave: dropping
      the pair does not change the rendered text. */
  lemma RenderDropsDeadPair(content: string, pairs: Replacements, j: nat, inner: string)
    requires j < |pairs|
    requires Contains(pairs[j].0, inner)
    requires !Contains(Render(content, pairs[..j]), inner)
    ensures Render(content, pairs) == Render(content, pairs[..j] + pairs[j + 1..])
  {
    var before := Render(content, pairs[..j]);
    assert pairs == pairs[..j] + ([pairs[j]] + pairs[j + 1..]);
    RenderAppend(content, pairs[..j], [pairs[j]] + pairs[j + 1..]);
    DeadKey(before, inner, pairs[j].0, pairs[j].1);
    assert Render(before, [pairs[j]] + pairs[j + 1..]) == Render(before, pairs[j + 1..]) by {
      assert ([pairs[j]] + pairs[j + 1..])[1..] == pairs[j + 1..];
    }
    RenderAppend(content, pairs[..j], pairs[j + 1..]);
  }

  /** Values that are non-empty and foreign to `other` never make `other`
      appear: a text without `other` renders to a text without `other`. */
  lemma {:induction false} RenderKeepsAbsent(content: string, pairs: Replacements, other: string)
    requires other != [] && !Contains(content, other)
    requires forall i :: 0 <= i < |pairs| ==>
      pairs[i].0 != [] && pairs[i].1 != [] && Foreign(pairs[i].1, other)
    ensures !Contains(Render(content, pairs), other)
    decreases |pairs|
  {
    if pairs != [] {
      ReplaceKeepsAbsent(content, pairs[0].0, pairs[0].1, other);
      RenderKeepsAbsent(Replace(content, pairs[0].0, pairs[0].1), pairs[1..], other);
    }
  }

  /** Every key and value is non-empty and no value shares a character with
      any key, so no value can bring a key back. */
  predicate ValuesForeignToKeys(pairs: Replacements) {
    forall i, j :: 0 <= i < |pairs| && 0 <= j < |pairs| ==>
      pairs[i].0 != [] && pairs[i].1 != [] && Foreign(pairs[i].1, pairs[j].0)
  }

  /** When no value can bring a key back, a rendering leaves none of its
      keys in the text. */
  lemma RenderEliminatesAll(content: string, pairs: Replacements)
    requires ValuesForeignToKeys(pairs)
    ensures forall j :: 0 <= j < |pairs| ==> !Contains(Render(content, pairs), pairs[j].0)
  {
    forall j | 0 <= j < |pairs| ensures !Contains(Render(content, pairs), pairs[j].0) {
      RenderEliminatesOne(content, pairs, j);
    }
  }

  lemma RenderEliminatesOne(content: string, pairs: Replacements, j: nat)
    requires ValuesForeignToKeys(pairs) && j < |pairs|
    ensures !Contains(Render(content, pairs), pairs[j].0)
  {
    var key := pairs[j].0;
    var before := Render(content, pairs[..j]);
    assert pairs[..j + 1] == pairs[..j] + [pairs[j]];
    RenderAppend(content, pairs[..j], [pairs[j]]);
    assert Render(before, [pairs[j]]) == Replace(before, key, pairs[j].1);
    ReplaceEliminates(before, key, pairs[j].1);
    var rest := pairs[j + 1..];
    assert pairs == pairs[..j + 1] + rest;
    RenderAppend(content, pairs[..j + 1], rest);
    forall i | 0 <= i < |rest|
      ensures rest[i].0 != [] && rest[i].1 != [] && Foreign(rest[i].1, key)
    {
      assert rest[i] == pairs[j + 1 + i];
    }
    RenderKeepsAbsent(Render(content, pairs[..j + 1]), rest, key);
  }

  /** When no value can bring a key back, rendering twice with the same
      pairs gives the same text as rendering once. */
  lemma RenderIdempotent(content: string, pairs: Replacements)
    requires ValuesForeignToKeys(pairs)
    ensures Render(Render(content, pairs), pairs) == Render(content, pairs)
  {
    RenderEliminatesAll(content, pairs);
    RenderSkipsAbsent(Render(content, pairs), pairs);
  }
}
